=== FILE: README.md ===
# BattleTaskCommander task allocation, modelled in Dafny

BattleTaskCommander places agents and tasks on a square grid. It matches agents to tasks in one of three ways:

- a deterministic greedy matcher driven by a scoring function;
- an evolutionary search over bit strings;
- a particle-swarm search, which falls back to an exhaustive search over task permutations for small instances.

The commander can also click on the grid to select an agent and then hand it a task by hand.

This project models those parts as pure Dafny functions over immutable data and proves what each promises:

| module | file | models |
|---|---|---|
| `Entities` | `entities.dfy` | agent and task records with their constructor defaults; Manhattan distance |
| `BattlefieldGrid` | `battlefield.dfy` | the character grid and `place_entity` |
| `Greedy` | `greedy.dfy` | `assign_tasks`: heap pushes, heap pop order, the claiming loop |
| `Commander` | `commander.dfy` | `get_entity_at_position` and the select-then-click reassignment |
| `Ga` | `ga.dfy` | gene list, fitness, `create_individual`, decoding of the best individual |
| `Permutations` | `permutations.dfy` | `itertools.permutations`, in its documented lexicographic order |
| `Pso` | `pso.dfy` | the swarm encoding, fitness and decoding, the brute-force fallback, the dispatcher |
| `Common` | `common.dfy` | `Option`/`Result`, set and map facts shared by the others |

Each matcher has a partner it is proved against:

- The greedy matcher is proved equal to a reference characterisation (`GreedyFor`), which is shown to determine the matching uniquely.
- The evolutionary fitness and decoding are proved to apply one shared skip rule (`Kept`).
- Swarm fitness is proved equal to a total over the "winning" agents.
- The brute-force pick is proved optimal over an enumeration that is proved complete and sorted.

Scores are exact reals. Scoring oracles, random draws and the swarm's search result are parameters.

## Model

| member | source | states |
|---|---|---|
| Entities.NewAgent | agent.py:2-10 | a new agent has the given id, role, position and health (default 80, stored as given with no clamping), state `'Idle'`, energy 100 and no task |
| Entities.NewTask | task.py:2-8 | a new task has the given id, type, position and urgency (default 5, stored as given with no clamping) and is not assigned |
| Entities.Manhattan | main.py:117 | the grid distance is zero exactly when agent and task share a cell, and is at least each coordinate gap |
| Entities.HealthTellsAgentsFromTasks | battlefield.py:8 | every agent has a `health` attribute and no task has one |
| BattlefieldGrid.NewBattlefield | battlefield.py:2-5 | the new grid has `height` rows of `width` cells, all `'.'`, and keeps the given dimensions |
| BattlefieldGrid.Mark | battlefield.py:8 | agents are drawn as `'A'` and tasks as `'T'` |
| BattlefieldGrid.PlaceEntity | battlefield.py:7-8 | placing writes the entity's mark at row y, column x, changes no other cell, keeps the shape and keeps every cell one of the three marks |
| BattlefieldGrid.PlaceLastWins | battlefield.py:7-8 | placing twice on one cell leaves only the second mark |
| BattlefieldGrid.PlaceCommutes | battlefield.py:7-8 | placements on different cells commute |
| Greedy.PopsFirstIsTotalOrder | main.py:124 | the heap key `(-score, agent id, task id)` orders entries totally: reflexive, total, transitive, antisymmetric |
| Greedy.Candidates | main.py:115-124 | exactly agents × tasks entries are pushed, each the scored entry of one snapshot agent and one snapshot task; no tasks means no entries |
| Greedy.CandidatesComplete | main.py:115-124 | every (agent, task) pair of the snapshot is pushed |
| Greedy.Insert | main.py:124 | inserting an entry into a heap order keeps heap order and adds exactly that entry |
| Greedy.PopOrder | main.py:130-131 | the pop sequence is in heap order and holds exactly the pushed entries |
| Greedy.PopOrderIsUnique | main.py:130-131 | any two heap orders of the same entries are equal, so the pop sequence is determined |
| Greedy.Pop | main.py:130-135 | the claiming loop returns a one-to-one map extending what was claimed, every new pair taken from a pending entry |
| Greedy.AssignTasks | main.py:112-136 | the result is one-to-one, pairs snapshot agents with snapshot tasks, has as many agents as tasks, and is empty when there are no tasks |
| Greedy.PopIsGreedy | main.py:130-135 | running the loop from any consistent prefix state completes the reference greedy matching of the pop sequence |
| Greedy.AssignTasksIsGreedy | main.py:112-136 | `assign_tasks` equals the reference greedy matching: each pair comes from an entry, and an entry is skipped only when an earlier taken entry shares its agent or task |
| Greedy.GreedyForIsUnique | main.py:130-135 | the reference characterisation admits only one matching of a pop sequence |
| Greedy.GreedyForIsMaximal | main.py:132 | in a greedy matching every entry's agent is assigned or its task is taken |
| Greedy.AssignTasksIsMaximal | main.py:112-136 | for every snapshot agent and task, the agent is assigned or the task is taken |
| Greedy.AssignTasksSize | main.py:130 | with distinct ids the matching has exactly min(agents, tasks) pairs |
| Commander.PixelToCell | main.py:177-178 | floor division by the 50-pixel cell: the pixel lies inside the returned cell |
| Commander.FirstAt | main.py:179-184 | the first position holding the cell, or the length when none does |
| Commander.EntityAt | main.py:176-185 | a reported agent id belongs to a snapshot agent and a reported task id to a snapshot task |
| Commander.EntityAtFindsFirst | main.py:176-185 | the lookup reports the first agent under the click; failing that the first task; failing that nothing; both directions |
| Commander.Reassign | main.py:210 | the selected agent now holds the clicked task; every other entry is unchanged |
| Commander.ReassignInjectiveIff | main.py:210 | a one-to-one assignment stays one-to-one after reassignment exactly when no other agent holds the chosen task |
| Commander.ReassignCanDuplicate | main.py:210 | the manual override may leave two agents on one task |
| Commander.AgentZeroIsNeverReassigned | main.py:200 | as written, a selected agent with id 0 is never reassigned by clicking a task |
| Commander.OnClickAsWritten | main.py:197-212 | as written: an agent click selects it; a task click reassigns and clears only when the selected id is truthy; otherwise nothing changes |
| Commander.OnClickDiffersOnlyForAgentZero | main.py:200 | the truthiness guard and the corrected guard disagree exactly on a task click while agent 0 is selected |
| Commander.OnClick | main.py:197-212 | corrected guard (main.py:200 uses truthiness): an agent click selects it; a task click with a selection reassigns that agent and clears the selection; otherwise nothing changes |
| Commander.SelectThenClickReassigns | main.py:197-212 | selecting any agent, id 0 included, and then clicking a task gives it that task |
| Ga.Pairs | ga_engine.py:6 | there are agents × tasks genes, each pairing a snapshot agent with a snapshot task |
| Ga.PairsAt | ga_engine.py:6 | gene a × (number of tasks) + t pairs agent a with task t |
| Ga.PairsIndex | ga_engine.py:6 | gene i pairs agent i div (number of tasks) with task i mod (number of tasks) |
| Ga.GaScore | ga_engine.py:18-19 | the score never exceeds its health and urgency terms, and equals them exactly when agent and task share a cell |
| Ga.FitnessFromKept | ga_engine.py:13-22 | the fitness loop from any gene on adds exactly the scores of the genes the skip rule keeps from there |
| Ga.Fitness | ga_engine.py:8-24 | the fitness is the score total of the genes the skip rule keeps, and those genes are positions of the gene list |
| Ga.KeptInvariant | ga_engine.py:16-22 | the kept genes pair distinct agents with distinct tasks |
| Ga.Decode | ga_engine.py:48-58 | the decoded assignment is exactly the map of the genes the fitness counts; it is one-to-one, and each entry is the pair of a set gene |
| Ga.DecodeBest | ga_engine.py:45-58 | the decoded best individual is one-to-one and pairs snapshot agents with snapshot tasks |
| Ga.GaAssign | ga_engine.py:4-58 | as written: seeding raises exactly when there are agents but no tasks, because it samples more genes than exist; otherwise the assignment is one-to-one and pairs snapshot agents with snapshot tasks |
| Ga.GaAssignGuarded | ga_engine.py:33-43 | corrected: no tasks gives `{}`; with tasks, seeding cannot raise and the assignment is the source's; always one-to-one over snapshot ids |
| Ga.AllZeroIndividual | ga_engine.py:8-24 | an individual with no set bit scores 0 and decodes to the empty map |
| Ga.CreateIndividual | ga_engine.py:33-39 | seeding raises exactly when there are more agents than genes; otherwise one bit per gene, set exactly at the sampled positions, as many set bits as agents |
| Ga.CreateIndividualForSnapshot | ga_engine.py:33-39 | seeding raises when there are agents but no tasks and succeeds whenever there are tasks |
| Permutations.RemoveAt | pso_engine.py:70 | removing one pool position keeps the rest, keeps it repeat-free and keeps it increasing |
| Permutations.Perms | pso_engine.py:70 | the enumeration is non-empty exactly when k does not exceed the pool size |
| Permutations.PermsAreArrangements | pso_engine.py:70 | over a repeat-free pool, every enumerated tuple arranges k distinct pool elements |
| Permutations.PermsComplete | pso_engine.py:70 | every arrangement of k distinct pool elements is enumerated |
| Permutations.PermsSorted | pso_engine.py:70 | over an increasing pool the enumeration is strictly increasing in tuple order |
| Permutations.LexLessAsymmetric | pso_engine.py:70 | tuple order is asymmetric and irreflexive |
| Pso.TravelDivisor | pso_engine.py:39 | the divisor is the larger of the agent's speed and 0.1 |
| Pso.SwarmScore | pso_engine.py:38-42 | travel never raises the score, and the score equals the health and urgency terms exactly when the agent stands on the task |
| Pso.SwarmScoreMonotoneInUrgency | pso_engine.py:42 | more urgency never lowers the score |
| Pso.Trunc | pso_engine.py:29 | `astype(int)` truncates toward zero |
| Pso.FirstMissing | pso_engine.py:38-42 | the first attribute read that the object lacks, or none when all are present |
| Pso.AsWrittenSwarmReadsMissingSpeed | pso_engine.py:39 | as written, the first score computation reads `speed`, which agent.py never sets |
| Pso.SwarmReadsAreSet | pso_engine.py:38-42 | the modelled agent has every attribute the score reads |
| Pso.TaskIndicesInBox | pso_engine.py:46-47 | inside the swarm's bounds every truncated coordinate lies in 0..num_tasks |
| Pso.ClaimedStep | pso_engine.py:30-34 | an agent wins its task index exactly when no earlier agent named it |
| Pso.Fitness | pso_engine.py:26-44 | every truncated coordinate is a valid index, and the swarm fitness is minus the score total of the agents that win their task index |
| Pso.Decode | pso_engine.py:53-62 | decoding gives every agent an entry holding only snapshot task ids; with distinct ids, each agent gets its task exactly when it wins it, else `None` |
| Pso.DecodeInjective | pso_engine.py:53-62 | with distinct ids no task goes to two agents |
| Pso.Arrangements | pso_engine.py:70 | each enumerated permutation names min(agents, tasks) distinct task indices |
| Pso.FirstBest | pso_engine.py:80-82 | the `score > best_score` scan keeps a maximum that beats every earlier total strictly |
| Pso.ScanFrom | pso_engine.py:80-82 | the scan keeps the incoming best position or moves to a later total that strictly beats the incoming best |
| Pso.ScanFindsFirstMax | pso_engine.py:80-82 | the scan ends on the first maximum of the totals |
| Pso.BestPerm | pso_engine.py:70-82 | the kept permutation is valid, repeat-free and of full length |
| Pso.PermAssignmentSpec | pso_engine.py:72-79 | a permutation's map has the first agents as keys, and agent i holds the id of task `perm[i]`, with distinct agent ids |
| Pso.FillNone | pso_engine.py:84-86 | agents missing from the map are added with `None`; existing entries are kept |
| Pso.BruteForce | pso_engine.py:64-88 | every agent gets an entry, and every task named is a snapshot task |
| Pso.BruteForceEntries | pso_engine.py:64-88 | the first agents get the kept permutation's tasks and every later agent gets `None` |
| Pso.BruteForceInjective | pso_engine.py:64-88 | with distinct ids no task goes to two agents |
| Pso.BruteForceOptimal | pso_engine.py:70-82 | no enumerated permutation totals more than the kept one |
| Pso.BruteForceKeepsFirstOfTies | pso_engine.py:80-82 | every permutation earlier in tuple order than the kept one totals strictly less |
| Pso.Assign | pso_engine.py:12-62 | no tasks gives `{}`; otherwise every agent gets an entry holding only snapshot task ids |
| Pso.AssignInjective | pso_engine.py:12-62 | both paths of the dispatcher give each task to at most one agent |
| Pso.SmallInstanceIsExhaustive | pso_engine.py:20-21 | small instances ignore the particle and return the best permutation for the first agents, `None` for the rest, with distinct agent ids |
| Pso.BruteForceMissesBetterAgent | pso_engine.py:64-88 | as written: for any two agents with distinct ids and one task, the first agent gets the task and the second `None`, even when the second scores higher and would total more |
| Pso.LoneSnapshotAsWritten | pso_engine.py:64-88 | on the Findings input, the first agent gets the task for a total of -3.4, though sending the second totals 32 |
| Pso.Choices | pso_engine.py:70 | corrected enumeration: each candidate gives every task a distinct agent |
| Pso.BestChoice | pso_engine.py:70-82 | the corrected pick is a valid, repeat-free choice of one agent per task |
| Pso.ExactAssignment | pso_engine.py:64-88 | the corrected fallback gives every agent an entry, holding only snapshot task ids |
| Pso.ExactAssignmentEntries | pso_engine.py:64-88 | the corrected fallback gives task t to agent `BestChoice[t]` and `None` to every unchosen agent, with distinct agent ids |
| Pso.ExactAssignmentOptimal | pso_engine.py:70-82 | no way of giving each task a distinct agent totals more than the corrected pick |
| Pso.ExactAssignmentPicksBetterAgent | pso_engine.py:64-88 | corrected: for any two agents with distinct ids and one task, the better-scoring agent gets the task and the other `None` |
| Pso.LoneSnapshotCorrected | pso_engine.py:64-88 | corrected, on the Findings input: the second agent gets the task |
| Pso.AssignExact | pso_engine.py:12-62 | the dispatcher with the corrected fallback: `{}` without tasks, else an entry for every agent |
| Pso.SmallInstanceIsOptimal | pso_engine.py:20-21 | with the corrected fallback, small instances get a best possible assignment of every task to a distinct agent, with distinct agent ids |

## Left out

- The swarm search (`pso`) and the evolutionary search (`GeneticAlgorithm.run`) are not modelled. Their results are parameters: the best particle handed to `Pso.Assign`, the best individual handed to `Ga.GaAssign`. The library that runs the evolutionary search, pyeasyga, is not part of this model; only its seeding through `create_individual` is.
- `random.sample` inside `create_individual` is a parameter too: the sample it drew.
- The fuzzy engine and the two simulated scorers used by `assign_tasks` and the click handler are an opaque function parameter (`Greedy.Scorer`). Their random noise is not modelled.
- Printing, the pygame window, drawing, the event loop's key handling, `battle.display`, the stdout redirection and `DummyOutput` are output only and are not modelled.
- Floating point is modelled as exact reals. Score ties that only rounding would break, and the `:.2f` formatting, are left out.
- The score the click handler computes for its message only feeds a print, so it is left out.
- The `next(...)` look-ups in the click handler cannot fail, because the ids come from the snapshot. They are not modelled.
- `BattlefieldGrid.PlaceEntity`: requires in-range coordinates. Python would wrap negative indices and raise on too-large ones; the program only places snapshot entities, which lie inside the grid.
- `Ga.Fitness`, `Ga.Decode`, `Ga.DecodeBest`, `Ga.GaAssign`, `Ga.GaAssignGuarded`: require one bit per gene. The seeding and the library's crossover and mutation preserve that length.
- `Ga.GaAssign`, `Ga.GaAssignGuarded`: only the seeding error is modelled. The library's single-point crossover draws `random.randrange(1, len(parent))`, which raises on individuals with fewer than two genes, so with no agents, or with one agent and one task, the real call almost surely raises where these return an assignment. The library is not part of this model.
- `Pso.Fitness` and `Pso.Decode`: require the particle to lie inside the swarm's bounds `[0, num_tasks]`. The library keeps particles inside them, so negative indices, which Python would wrap, do not arise.
- `Greedy.AssignTasksSize`, `Pso.DecodeInjective`, `Pso.BruteForceInjective`, `Pso.AssignInjective`: assume distinct agent and task ids, as the snapshot in main.py has. With repeated ids the dictionaries merge entries.
- `Pso.Decode`, `Pso.PermAssignmentSpec`, `Pso.BruteForceEntries`, `Pso.SmallInstanceIsExhaustive`, `Pso.ExactAssignmentEntries`, `Pso.SmallInstanceIsOptimal`, `Pso.BruteForceMissesBetterAgent`, `Pso.ExactAssignmentPicksBetterAgent`: state per-agent entries only for distinct agent ids, for the same reason.
- The metrics module and the fuzzy membership functions are not part of this model.

## Findings

| source | as written | input that shows it | evidently intended | confidence | as-written member | corrected member |
|---|---|---|---|---|---|---|
| pso_engine.py:39 | the score reads `agent.speed` (also at line 77 on the brute-force path), but agent.py never sets a `speed` attribute | any call that reaches a score computation, e.g. the default three agents and three tasks | agents carry a speed (the model adds it to the record) | not executed; high | Pso.AsWrittenSwarmReadsMissingSpeed | Pso.SwarmReadsAreSet |
| main.py:200 | the reassignment is guarded by the truthiness of `selected_agent_id` | select the agent with id 0, then click a task: nothing is reassigned | any selected agent can be reassigned (`is not None`) | not executed; high | Commander.AgentZeroIsNeverReassigned | Commander.SelectThenClickReassigns |
| pso_engine.py:70-79 | permutations of task indices are assigned to the first agents only, so later agents never get a task | two agents of speed 1, one task of urgency 5 at (0,0): agent 1 at (9,9) with health 0, agent 2 at (0,0) with health 100; agent 1 gets the task (total -3.4), though agent 2 scores 32 | the best assignment of tasks to distinct agents | not executed; medium | Pso.BruteForceMissesBetterAgent | Pso.ExactAssignmentOptimal |
| ga_engine.py:37 | `get_ga_assignment` has no empty-task guard, so seeding calls `random.sample(range(0), len(agents))`, which raises `ValueError` | one agent and no tasks | an empty assignment, as `get_pso_assignment` returns at pso_engine.py:16-17 | not executed; high | Ga.CreateIndividualForSnapshot | Ga.GaAssignGuarded |

`Ga.GaAssign` keeps the missing guard, and `Ga.GaAssignGuarded` adds it. `Pso.Assign` keeps the fallback as written. `Pso.AssignExact` is the dispatcher with the corrected fallback `Pso.ExactAssignment`.

=== FILE: battlefield.dfy ===
/** The character grid of battlefield.py: `height` rows of `width` cells. */
module BattlefieldGrid {
  import opened Entities

  const EmptyCell: char := '.'
  const AgentCell: char := 'A'
  const TaskCell: char := 'T'

  datatype Battlefield = Battlefield(width: int, height: int, grid: seq<seq<char>>)

  /** Length of Python's `range(n)`: zero for negative `n`. */
  function RangeLength(n: int): nat
  {
    if n < 0 then 0 else n
  }

  /** The grid has the stored dimensions. */
  ghost predicate WellFormed(b: Battlefield)
  {
    && |b.grid| == RangeLength(b.height)
    && forall r :: 0 <= r < |b.grid| ==> |b.grid[r]| == RangeLength(b.width)
  }

  /** Every cell holds one of the three marks. */
  ghost predicate ValidCells(b: Battlefield)
  {
    forall r, c :: 0 <= r < |b.grid| && 0 <= c < |b.grid[r]| ==>
      b.grid[r][c] == EmptyCell || b.grid[r][c] == AgentCell || b.grid[r][c] == TaskCell
  }

  /** `Battlefield(width=10, height=10)`: every cell empty. */
  function NewBattlefield(width: int := 10, height: int := 10): (b: Battlefield)
    ensures b.width == width && b.height == height
    ensures WellFormed(b) && ValidCells(b)
    ensures forall r, c :: 0 <= r < |b.grid| && 0 <= c < |b.grid[r]| ==> b.grid[r][c] == EmptyCell
  {
    Battlefield(width, height, seq(RangeLength(height), _ => seq(RangeLength(width), _ => EmptyCell)))
  }

  /** The mark written for an entity, chosen by whether it has a `health`
      attribute: agents are drawn as `'A'` and tasks as `'T'`. */
  function Mark(e: Entity): (m: char)
    ensures e.AgentEntity? ==> m == AgentCell
    ensures e.TaskEntity? ==> m == TaskCell
  {
    if HasAttr(e, "health") then AgentCell else TaskCell
  }

  /** `place_entity(x, y, entity)`: writes row `y`, column `x` and nothing else.
      Python would wrap negative indices, so the model asks for in-range ones. */
  function PlaceEntity(b: Battlefield, x: int, y: int, e: Entity): (b': Battlefield)
    requires WellFormed(b)
    requires 0 <= x < b.width && 0 <= y < b.height
    ensures WellFormed(b') && b'.width == b.width && b'.height == b.height
    ensures |b'.grid| == |b.grid| && b'.grid[y][x] == Mark(e)
    ensures forall r, c :: 0 <= r < |b.grid| && 0 <= c < |b.grid[r]| && (r != y || c != x) ==>
      b'.grid[r][c] == b.grid[r][c]
    ensures ValidCells(b) ==> ValidCells(b')
  {
    b.(grid := b.grid[y := b.grid[y][x := Mark(e)]])
  }

  /** Placing on the same cell twice leaves only the second mark. */
  lemma PlaceLastWins(b: Battlefield, x: int, y: int, e1: Entity, e2: Entity)
    requires WellFormed(b)
    requires 0 <= x < b.width && 0 <= y < b.height
    ensures PlaceEntity(PlaceEntity(b, x, y, e1), x, y, e2) == PlaceEntity(b, x, y, e2)
  {
    var row := b.grid[y];
    assert row[x := Mark(e1)][x := Mark(e2)] == row[x := Mark(e2)];
  }

  /** Placements on different cells commute. */
  lemma PlaceCommutes(b: Battlefield, x1: int, y1: int, e1: Entity, x2: int, y2: int, e2: Entity)
    requires WellFormed(b)
    requires 0 <= x1 < b.width && 0 <= y1 < b.height
    requires 0 <= x2 < b.width && 0 <= y2 < b.height
    requires x1 != x2 || y1 != y2
    ensures PlaceEntity(PlaceEntity(b, x1, y1, e1), x2, y2, e2)
         == PlaceEntity(PlaceEntity(b, x2, y2, e2), x1, y1, e1)
  {
    var m1, m2 := Mark(e1), Mark(e2);
    if y1 == y2 {
      var row := b.grid[y1];
      assert row[x1 := m1][x2 := m2] == row[x2 := m2][x1 := m1];
    } else {
      var g: seq<seq<char>> := b.grid;
      var r1: seq<char> := g[y1][x1 := m1];
      var r2: seq<char> := g[y2][x2 := m2];
      var g1 := g[y1 := r1];
      var g2 := g[y2 := r2];
      assert g1[y2 := r2] == g2[y1 := r1];
    }
  }
}

=== FILE: commander.dfy ===
/** The commander's mouse interaction in main.py: which entity a click lands on,
    and the manual reassignment of a selected agent to a clicked task. */
module Commander {
  import opened Common
  import opened Entities

  /** Side of a grid cell in pixels. */
  const CellSize: int := 50

  /** Python's `p // CELL_SIZE`: floor division, which Dafny's `/` agrees with
      for a positive divisor. */
  function PixelToCell(p: int): (c: int)
    ensures CellSize * c <= p < CellSize * c + CellSize
  {
    p / CellSize
  }

  /** The result of `get_entity_at_position`: `('agent', id)`, `('task', id)` or `(None, None)`. */
  datatype Hit = AgentHit(id: int) | TaskHit(id: int) | NoHit

  /** Grid cells of a list of agents, in list order. */
  function AgentCells(agents: seq<Agent>): (cells: seq<(int, int)>)
    ensures |cells| == |agents|
    ensures forall i :: 0 <= i < |agents| ==> cells[i] == (agents[i].x, agents[i].y)
  {
    seq(|agents|, i requires 0 <= i < |agents| => (agents[i].x, agents[i].y))
  }

  /** Grid cells of a list of tasks, in list order. */
  function TaskCells(tasks: seq<Task>): (cells: seq<(int, int)>)
    ensures |cells| == |tasks|
    ensures forall i :: 0 <= i < |tasks| ==> cells[i] == (tasks[i].x, tasks[i].y)
  {
    seq(|tasks|, i requires 0 <= i < |tasks| => (tasks[i].x, tasks[i].y))
  }

  /** The first position holding `cell`, or `|cells|` when none does: the
      early-returning `for` loops of main.py:179-184. */
  function FirstAt(cells: seq<(int, int)>, cell: (int, int)): (k: nat)
    ensures k <= |cells|
    ensures k < |cells| ==> cells[k] == cell
    ensures forall j :: 0 <= j < k ==> cells[j] != cell
  {
    if |cells| == 0 then 0
    else if cells[0] == cell then 0
    else 1 + FirstAt(cells[1..], cell)
  }

  /** `get_entity_at_position(x, y)`: agents shadow tasks on the same cell, and
      the id reported is always one of the snapshot's. */
  function EntityAt(agents: seq<Agent>, tasks: seq<Task>, px: int, py: int): (h: Hit)
    ensures h.AgentHit? ==> h.id in AgentIds(agents)
    ensures h.TaskHit? ==> h.id in TaskIds(tasks)
  {
    var cell := (PixelToCell(px), PixelToCell(py));
    var i := FirstAt(AgentCells(agents), cell);
    if i < |agents| then
      assert AgentIdSeq(agents)[i] == agents[i].id;
      AgentHit(agents[i].id)
    else
      var j := FirstAt(TaskCells(tasks), cell);
      if j < |tasks| then
        assert TaskIdSeq(tasks)[j] == tasks[j].id;
        TaskHit(tasks[j].id)
      else NoHit
  }

  /** The click lands on the cell of the agent (task). */
  predicate AgentUnder(a: Agent, px: int, py: int)
  {
    a.x == PixelToCell(px) && a.y == PixelToCell(py)
  }

  predicate TaskUnder(t: Task, px: int, py: int)
  {
    t.x == PixelToCell(px) && t.y == PixelToCell(py)
  }

  /** The lookup reports the first agent under the click; failing that the first
      task; failing that nothing. */
  lemma EntityAtFindsFirst(agents: seq<Agent>, tasks: seq<Task>, px: int, py: int)
    ensures EntityAt(agents, tasks, px, py).AgentHit? <==>
      exists i :: 0 <= i < |agents| && AgentUnder(agents[i], px, py)
    ensures EntityAt(agents, tasks, px, py).AgentHit? ==>
      exists i :: 0 <= i < |agents| && AgentUnder(agents[i], px, py)
        && EntityAt(agents, tasks, px, py).id == agents[i].id
        && forall j :: 0 <= j < i ==> !AgentUnder(agents[j], px, py)
    ensures EntityAt(agents, tasks, px, py).TaskHit? <==>
      (forall i :: 0 <= i < |agents| ==> !AgentUnder(agents[i], px, py))
      && exists j :: 0 <= j < |tasks| && TaskUnder(tasks[j], px, py)
    ensures EntityAt(agents, tasks, px, py).TaskHit? ==>
      exists j :: 0 <= j < |tasks| && TaskUnder(tasks[j], px, py)
        && EntityAt(agents, tasks, px, py).id == tasks[j].id
        && forall k :: 0 <= k < j ==> !TaskUnder(tasks[k], px, py)
  {
    var cell := (PixelToCell(px), PixelToCell(py));
    var i := FirstAt(AgentCells(agents), cell);
    var j := FirstAt(TaskCells(tasks), cell);
    if i < |agents| {
      assert AgentUnder(agents[i], px, py);
    } else {
      assert forall k :: 0 <= k < |agents| ==> !AgentUnder(agents[k], px, py) by {
        forall k | 0 <= k < |agents|
          ensures !AgentUnder(agents[k], px, py)
        {
          assert AgentCells(agents)[k] != cell;
        }
      }
      if j < |tasks| {
        assert TaskUnder(tasks[j], px, py);
      }
      forall k | 0 <= k < |tasks| && k < j
        ensures !TaskUnder(tasks[k], px, py)
      {
        assert TaskCells(tasks)[k] != cell;
      }
    }
    forall k | 0 <= k < |agents| && k < i
      ensures !AgentUnder(agents[k], px, py)
    {
      assert AgentCells(agents)[k] != cell;
    }
  }

  /** `assignments[selected_agent_id] = eid` (main.py:210): one map update. */
  function Reassign(assignments: map<int, int>, agentId: int, taskId: int): (r: map<int, int>)
    ensures r.Keys == assignments.Keys + {agentId}
    ensures r[agentId] == taskId
    ensures forall k :: k in assignments && k != agentId ==> r[k] == assignments[k]
  {
    assignments[agentId := taskId]
  }

  /** A one-to-one assignment stays one-to-one after a manual reassignment exactly
      when no other agent holds the chosen task. */
  lemma ReassignInjectiveIff(assignments: map<int, int>, agentId: int, taskId: int)
    requires Injective(assignments)
    ensures Injective(Reassign(assignments, agentId, taskId)) <==>
      forall k :: k in assignments && k != agentId ==> assignments[k] != taskId
  {
    var r := Reassign(assignments, agentId, taskId);
    if Injective(r) {
      forall k | k in assignments && k != agentId
        ensures assignments[k] != taskId
      {
        assert r[k] != r[agentId];
      }
    }
  }

  /** The override may leave two agents on one task. */
  lemma ReassignCanDuplicate()
    ensures Injective(map[1 := 1, 2 := 2])
    ensures !Injective(Reassign(map[1 := 1, 2 := 2], 1, 2))
  {
    var r := Reassign(map[1 := 1, 2 := 2], 1, 2);
    assert r[1] == r[2];
  }

  /** The part of the commander's state that clicks change. */
  datatype Commander = Commander(assignments: map<int, int>, selected: Option<int>)

  /** Python truthiness of `selected_agent_id`: `None` and `0` are false. */
  predicate Truthy(selected: Option<int>)
  {
    selected.Some? && selected.value != 0
  }

  /** main.py:197-212 as written: the reassignment is guarded by the truthiness
      of the selected id. */
  function OnClickAsWritten(st: Commander, hit: Hit): (st': Commander)
    ensures hit.AgentHit? ==> st' == st.(selected := Some(hit.id))
    ensures hit.TaskHit? && Truthy(st.selected) ==>
      st'.selected == None && st'.assignments.Keys == st.assignments.Keys + {st.selected.value}
      && st'.assignments[st.selected.value] == hit.id
      && forall k :: k in st.assignments && k != st.selected.value ==> st'.assignments[k] == st.assignments[k]
    ensures hit.NoHit? || (hit.TaskHit? && !Truthy(st.selected)) ==> st' == st
  {
    match hit
    case AgentHit(id) => st.(selected := Some(id))
    case TaskHit(eid) =>
      if Truthy(st.selected) then
        Commander(Reassign(st.assignments, st.selected.value, eid), None)
      else st
    case NoHit => st
  }

  /** An agent whose id is 0 can be selected but never reassigned by a click. */
  lemma AgentZeroIsNeverReassigned(assignments: map<int, int>, taskId: int)
    ensures OnClickAsWritten(Commander(assignments, Some(0)), TaskHit(taskId))
         == Commander(assignments, Some(0))
    ensures OnClickAsWritten(OnClickAsWritten(Commander(assignments, None), AgentHit(0)), TaskHit(taskId)).assignments
         == assignments
  {
  }

  /** The click handler with the guard the code evidently intends: any selected agent. */
  function OnClick(st: Commander, hit: Hit): (st': Commander)
    ensures hit.AgentHit? ==> st' == st.(selected := Some(hit.id))
    ensures hit.TaskHit? && st.selected.Some? ==>
      st'.selected == None && st'.assignments.Keys == st.assignments.Keys + {st.selected.value}
      && st'.assignments[st.selected.value] == hit.id
      && forall k :: k in st.assignments && k != st.selected.value ==> st'.assignments[k] == st.assignments[k]
    ensures hit.NoHit? || (hit.TaskHit? && st.selected.None?) ==> st' == st
  {
    match hit
    case AgentHit(id) => st.(selected := Some(id))
    case TaskHit(eid) =>
      if st.selected.Some? then
        Commander(Reassign(st.assignments, st.selected.value, eid), None)
      else st
    case NoHit => st
  }

  /** The handler as written and the corrected one differ on exactly one kind of
      click: a task clicked while the agent with id 0 is selected. */
  lemma OnClickDiffersOnlyForAgentZero(st: Commander, hit: Hit)
    ensures OnClickAsWritten(st, hit) != OnClick(st, hit) <==> hit.TaskHit? && st.selected == Some(0)
  {
    if hit.TaskHit? && st.selected == Some(0) {
      assert OnClickAsWritten(st, hit).selected != OnClick(st, hit).selected;
    }
  }

  /** Selecting an agent and then clicking a task reassigns that agent, id 0 included. */
  lemma SelectThenClickReassigns(st: Commander, agentId: int, taskId: int)
    ensures OnClick(OnClick(st, AgentHit(agentId)), TaskHit(taskId)).assignments[agentId] == taskId
  {
  }
}

=== FILE: common.dfy ===
/** Small value types and collection facts shared by every matcher. */
module Common {

  /** Python's `None` or a value. */
  datatype Option<+T> = None | Some(value: T)

  /** A computation that either yields a value or raises. */
  datatype Result<+T, +E> = Ok(value: T) | Err(error: E)

  function Abs(n: int): (r: nat)
    ensures r == n || r == -n
  {
    if n < 0 then -n else n
  }

  function Min(a: int, b: int): (r: int)
    ensures r <= a && r <= b && (r == a || r == b)
  {
    if a <= b then a else b
  }

  /** Multiplication by a non-negative factor is monotone. */
  lemma MulMonotone(x: int, y: int, m: int)
    requires x <= y && 0 <= m
    ensures x * m <= y * m
  {
    assert y * m == x * m + (y - x) * m;
  }

  lemma MulNonNegative(x: int, m: int)
    requires 0 <= x && 0 <= m
    ensures 0 <= x * m
  {
  }

  /** One more row moves a row-major position by a full row. */
  lemma RowMajorStep(a: int, m: int)
    ensures a * m == m + (a - 1) * m
  {
  }

  /** Row-major positions: row `a`, column `t` of an `n` by `m` table lies inside it. */
  lemma RowMajorBound(a: int, t: int, n: int, m: int)
    requires 0 <= a < n && 0 <= t < m
    ensures 0 <= a * m && a * m + t < n * m
  {
    MulNonNegative(a, m);
    RowMajorStep(a + 1, m);
    MulMonotone(a + 1, n, m);
  }

  /** Floor division recovers the row and column of a row-major position. */
  lemma RowMajorSplit(i: int, n: int, m: int)
    requires 0 <= i && 0 < m && i < n * m
    ensures 0 <= i / m < n && 0 <= i % m < m
    ensures i == (i / m) * m + i % m
  {
  }

  /** A new element grows a set by one. */
  lemma AddFresh(a: set<int>, x: int)
    requires x !in a
    ensures |a + {x}| == |a| + 1
  {
  }

  /** The set of values held in a sequence. */
  function Elems(s: seq<int>): set<int>
  {
    set x | x in s
  }

  /** No value occurs twice. */
  ghost predicate Distinct(s: seq<int>)
  {
    forall i, j :: 0 <= i < j < |s| ==> s[i] != s[j]
  }

  /** A sequence without repeats has as many distinct values as positions. */
  lemma {:induction false} DistinctCard(s: seq<int>)
    requires Distinct(s)
    ensures |Elems(s)| == |s|
  {
    if |s| > 0 {
      var p := s[..|s| - 1];
      DistinctCard(p);
      assert Elems(s) == Elems(p) + {s[|s| - 1]};
      assert s[|s| - 1] !in Elems(p);
    }
  }

  /** A sequence never has more distinct values than positions. */
  lemma {:induction false} ElemsCard(s: seq<int>)
    ensures |Elems(s)| <= |s|
  {
    if |s| > 0 {
      var p := s[..|s| - 1];
      ElemsCard(p);
      assert Elems(s) == Elems(p) + {s[|s| - 1]};
    }
  }

  /** A non-empty set has an element to pick. */
  lemma NonEmptyHasElement(a: set<int>)
    requires a != {}
    ensures exists x :: x in a
  {
    if forall x :: x !in a {
      assert false;
    }
  }

  /** A value of a map is the image of some key. */
  lemma ValueHasKey(m: map<int, int>, v: int)
    requires v in m.Values
    ensures exists k :: k in m && m[k] == v
  {
    if forall k :: k in m ==> m[k] != v {
      assert false;
    }
  }

  /** Cardinality is monotone under inclusion, and an equally large subset is the whole set. */
  lemma {:induction false} SubsetCard(a: set<int>, b: set<int>)
    requires a <= b
    ensures |a| <= |b|
    ensures |a| == |b| ==> a == b
    decreases |a|
  {
    if a != {} {
      NonEmptyHasElement(a);
      var x :| x in a;
      SubsetCard(a - {x}, b - {x});
      assert a == (a - {x}) + {x};
      assert b == (b - {x}) + {x};
    } else {
      assert |a| == 0;
    }
  }

  /** A subset strictly smaller than its superset misses one of its elements. */
  lemma SmallerSubsetMisses(a: set<int>, b: set<int>)
    requires a <= b && |a| < |b|
    ensures exists x :: x in b && x !in a
  {
    if forall x :: x in b ==> x in a {
      SubsetCard(b, a);
      assert false;
    }
  }

  /** A subset at least as large as its superset is the whole superset. */
  lemma LargeSubsetIsAll(a: set<int>, b: set<int>)
    requires a <= b && |a| >= |b|
    ensures a == b
  {
    SubsetCard(a, b);
  }

  /** No task id is the value of two different agent ids. */
  ghost predicate Injective(m: map<int, int>)
  {
    forall a, b :: a in m && b in m && a != b ==> m[a] != m[b]
  }

  /** No task id is the non-None value of two different agent ids. */
  ghost predicate InjectiveSome(m: map<int, Option<int>>)
  {
    forall a, b :: a in m && b in m && a != b && m[a].Some? ==> m[a] != m[b]
  }

  /** Adding a fresh key with a fresh value keeps a map one-to-one and adds
      exactly that value. */
  lemma FreshUpdate(m: map<int, int>, k: int, v: int)
    requires k !in m && v !in m.Values && Injective(m)
    ensures m[k := v].Values == m.Values + {v}
    ensures Injective(m[k := v])
  {
    var m' := m[k := v];
    forall w | w in m.Values + {v}
      ensures w in m'.Values
    {
      if w != v {
        ValueHasKey(m, w);
        var j :| j in m && m[j] == w;
        assert m'[j] == w;
      } else {
        assert m'[k] == w;
      }
    }
  }

  /** The task ids that some agent holds in a map with optional values. */
  function SomeValues(m: map<int, Option<int>>): set<int>
  {
    set a | a in m && m[a].Some? :: m[a].value
  }
}

=== FILE: entities.dfy ===
/** The agent and task records (agent.py, task.py) and the attribute view of them
    that the battlefield grid inspects. */
module Entities {
  import opened Common

  /** A mobile actor. `speed` is not set by the repository's constructor but is
      read by the swarm matcher, so the model carries it explicitly. */
  datatype Agent = Agent(
    id: int,
    role: string,
    x: int,
    y: int,
    state: string,
    health: real,
    energy: int,
    task: Option<int>,
    speed: real)

  /** A stationary unit of work. */
  datatype Task = Task(
    id: int,
    kind: string,
    x: int,
    y: int,
    urgency: real,
    isAssigned: bool)

  const DefaultHealth: real := 80.0
  const DefaultUrgency: real := 5.0
  const IdleState: string := "Idle"
  const FullEnergy: int := 100

  /** `Agent(id, role, x, y, health=80)`, plus the speed the swarm matcher reads,
      which callers pass by name (`speed := …`). */
  function NewAgent(id: int, role: string, x: int, y: int, health: real := DefaultHealth, speed: real): (a: Agent)
    ensures a.id == id && a.role == role && a.x == x && a.y == y
    ensures a.health == health && a.speed == speed
    ensures a.state == IdleState && a.energy == FullEnergy && a.task == None
  {
    Agent(id, role, x, y, IdleState, health, FullEnergy, None, speed)
  }

  /** `Task(id, type, x, y, urgency=5)`. */
  function NewTask(id: int, kind: string, x: int, y: int, urgency: real := DefaultUrgency): (t: Task)
    ensures t.id == id && t.kind == kind && t.x == x && t.y == y
    ensures t.urgency == urgency && !t.isAssigned
  {
    Task(id, kind, x, y, urgency, false)
  }

  /** Grid distance `|ax - tx| + |ay - ty|` used by every matcher. */
  function Manhattan(a: Agent, t: Task): (d: nat)
    ensures d == 0 <==> a.x == t.x && a.y == t.y
    ensures d >= Abs(a.x - t.x) && d >= Abs(a.y - t.y)
  {
    Abs(a.x - t.x) + Abs(a.y - t.y)
  }

  /** The ids of a list of agents, in list order. */
  function AgentIdSeq(agents: seq<Agent>): (ids: seq<int>)
    ensures |ids| == |agents|
    ensures forall i :: 0 <= i < |agents| ==> ids[i] == agents[i].id
  {
    seq(|agents|, i requires 0 <= i < |agents| => agents[i].id)
  }

  /** The ids of a list of tasks, in list order. */
  function TaskIdSeq(tasks: seq<Task>): (ids: seq<int>)
    ensures |ids| == |tasks|
    ensures forall i :: 0 <= i < |tasks| ==> ids[i] == tasks[i].id
  {
    seq(|tasks|, i requires 0 <= i < |tasks| => tasks[i].id)
  }

  function AgentIds(agents: seq<Agent>): set<int>
  {
    Elems(AgentIdSeq(agents))
  }

  function TaskIds(tasks: seq<Task>): set<int>
  {
    Elems(TaskIdSeq(tasks))
  }

  /** Agents (tasks) of a snapshot carry pairwise different ids. */
  ghost predicate DistinctAgentIds(agents: seq<Agent>)
  {
    Distinct(AgentIdSeq(agents))
  }

  ghost predicate DistinctTaskIds(tasks: seq<Task>)
  {
    Distinct(TaskIdSeq(tasks))
  }

  /** An entity handed to the battlefield: either record. */
  datatype Entity = AgentEntity(agent: Agent) | TaskEntity(task: Task)

  /** The attributes agent.py's constructor sets on an Agent instance. */
  const AsWrittenAgentAttributes: set<string> :=
    {"id", "role", "x", "y", "state", "health", "energy", "task"}

  /** The modelled Agent's attributes: the constructor's plus `speed`. */
  const AgentAttributes: set<string> := AsWrittenAgentAttributes + {"speed"}

  /** The attributes task.py's constructor sets on a Task instance. */
  const TaskAttributes: set<string> := {"id", "type", "x", "y", "urgency", "assigned"}

  function Attributes(e: Entity): set<string>
  {
    match e
    case AgentEntity(_) => AgentAttributes
    case TaskEntity(_) => TaskAttributes
  }

  /** Python's `hasattr(entity, name)`. */
  predicate HasAttr(e: Entity, name: string)
  {
    name in Attributes(e)
  }

  /** Every agent has a `health` attribute and no task has one. */
  lemma HealthTellsAgentsFromTasks(a: Agent, t: Task)
    ensures HasAttr(AgentEntity(a), "health")
    ensures !HasAttr(TaskEntity(t), "health")
  {
  }
}

=== FILE: ga.dfy ===
/** The deterministic parts of the evolutionary matcher (ga_engine.py): the gene
    layout, the skip-rule fitness, the seeding of an individual and the decode of
    the best individual. The genetic search itself is a foreign optimiser and
    only its output, the best individual, enters the model. */
module Ga {
  import opened Common
  import opened Entities

  /** The (agent, task) pair a gene stands for. */
  datatype Gene = Gene(agent: Agent, task: Task)

  /** The genes of one agent, in task order. */
  function Row(a: Agent, tasks: seq<Task>): seq<Gene>
  {
    seq(|tasks|, j requires 0 <= j < |tasks| => Gene(a, tasks[j]))
  }

  /** `data = [(agent, task) for agent in agents for task in tasks]`. */
  function Pairs(agents: seq<Agent>, tasks: seq<Task>): (data: seq<Gene>)
    ensures |data| == |agents| * |tasks|
    ensures forall g :: g in data ==> g.agent in agents && g.task in tasks
  {
    if |agents| == 0 then []
    else
      var rest := Pairs(agents[1..], tasks);
      assert |agents| * |tasks| == |tasks| + (|agents| - 1) * |tasks|;
      Row(agents[0], tasks) + rest
  }

  /** Gene `a * |tasks| + t` pairs agent `a` with task `t`. */
  lemma {:induction false} PairsAt(agents: seq<Agent>, tasks: seq<Task>, a: int, t: int)
    requires 0 <= a < |agents| && 0 <= t < |tasks|
    ensures 0 <= a * |tasks| + t < |agents| * |tasks|
    ensures Pairs(agents, tasks)[a * |tasks| + t] == Gene(agents[a], tasks[t])
  {
    RowMajorBound(a, t, |agents|, |tasks|);
    if a == 0 {
      PairsInFirstRow(agents, tasks, t);
    } else {
      PairsAt(agents[1..], tasks, a - 1, t);
      PairsInLaterRow(agents, tasks, a, t);
    }
  }

  /** The first `|tasks|` genes are the first agent's row. */
  lemma PairsInFirstRow(agents: seq<Agent>, tasks: seq<Task>, t: int)
    requires 0 < |agents| && 0 <= t < |tasks|
    ensures 0 * |tasks| + t == t < |Pairs(agents, tasks)|
    ensures Pairs(agents, tasks)[t] == Gene(agents[0], tasks[t])
  {
    assert Pairs(agents, tasks) == Row(agents[0], tasks) + Pairs(agents[1..], tasks);
  }

  /** A gene of a later agent sits one row further on than among the rest of the agents. */
  lemma PairsInLaterRow(agents: seq<Agent>, tasks: seq<Task>, a: int, t: int)
    requires 0 < a < |agents| && 0 <= t < |tasks|
    requires 0 <= (a - 1) * |tasks| + t < |Pairs(agents[1..], tasks)|
    requires Pairs(agents[1..], tasks)[(a - 1) * |tasks| + t] == Gene(agents[1..][a - 1], tasks[t])
    ensures 0 <= a * |tasks| + t < |Pairs(agents, tasks)|
    ensures Pairs(agents, tasks)[a * |tasks| + t] == Gene(agents[a], tasks[t])
  {
    var m := |tasks|;
    var k := (a - 1) * m + t;
    RowMajorStep(a, m);
    var row := Row(agents[0], tasks);
    var rest := Pairs(agents[1..], tasks);
    assert Pairs(agents, tasks) == row + rest;
    assert a * m + t == |row| + k;
    assert (row + rest)[|row| + k] == rest[k];
    assert agents[1..][a - 1] == agents[a];
  }

  /** Gene `i` pairs agent `i div |tasks|` with task `i mod |tasks|`. */
  lemma PairsIndex(agents: seq<Agent>, tasks: seq<Task>, i: int)
    requires 0 <= i < |agents| * |tasks|
    ensures |tasks| > 0 && 0 <= i / |tasks| < |agents|
    ensures Pairs(agents, tasks)[i] == Gene(agents[i / |tasks|], tasks[i % |tasks|])
  {
    var m := |tasks|;
    if m > 0 {
      RowMajorSplit(i, |agents|, m);
      PairsAt(agents, tasks, i / m, i % m);
    }
  }

  /** Weights of the evolutionary score: health and urgency count for a pair,
      distance against it, so only an agent on its task scores the full
      health and urgency terms. */
  function GaScore(a: Agent, t: Task): (s: real)
    ensures s <= 0.5 * a.health + 0.3 * t.urgency
    ensures s == 0.5 * a.health + 0.3 * t.urgency <==> a.x == t.x && a.y == t.y
  {
    0.5 * a.health + 0.3 * t.urgency - 0.2 * (Manhattan(a, t) as real)
  }

  /** The fitness loop of ga_engine.py:13-22 from gene `i` on, given the agent and
      task ids already used: a set gene whose agent or task is used is skipped. */
  function FitnessFrom(data: seq<Gene>, ind: seq<bool>, i: nat, usedAgents: set<int>, usedTasks: set<int>): real
    requires |ind| == |data| && i <= |ind|
    decreases |ind| - i
  {
    if i == |ind| then 0.0
    else if ind[i] then
      var g := data[i];
      if g.agent.id in usedAgents || g.task.id in usedTasks then
        FitnessFrom(data, ind, i + 1, usedAgents, usedTasks)
      else
        GaScore(g.agent, g.task) + FitnessFrom(data, ind, i + 1, usedAgents + {g.agent.id}, usedTasks + {g.task.id})
    else
      FitnessFrom(data, ind, i + 1, usedAgents, usedTasks)
  }

  /** `fitness(individual, data)`. Individuals always have one bit per gene: the
      seeding below and the search's crossover and mutation keep that length. */
  function Fitness(data: seq<Gene>, ind: seq<bool>): (f: real)
    requires |ind| == |data|
    ensures Positions(data, Kept(data, ind, |ind|))
    ensures f == KeptTotal(data, Kept(data, ind, |ind|))
  {
    FitnessFromKept(data, ind, 0);
    RemainingAtStart(data, ind);
    RemainingAtEnd(data, ind);
    FitnessFrom(data, ind, 0, {}, {})
  }

  /** The decode loop of ga_engine.py:51-56 from gene `i` on: a set gene is kept
      when its agent has no entry yet and its task is unused. */
  function DecodeFrom(data: seq<Gene>, ind: seq<bool>, i: nat, assignment: map<int, int>, usedTasks: set<int>)
    : map<int, int>
    requires |ind| == |data| && i <= |ind|
    decreases |ind| - i
  {
    if i == |ind| then assignment
    else if ind[i] && data[i].agent.id !in assignment && data[i].task.id !in usedTasks then
      var g := data[i];
      DecodeFrom(data, ind, i + 1, assignment[g.agent.id := g.task.id], usedTasks + {g.task.id})
    else
      DecodeFrom(data, ind, i + 1, assignment, usedTasks)
  }

  /** The assignment decoded from an individual: exactly the pairs of the genes
      the fitness counts, one-to-one, every entry the pair of a set gene. */
  function Decode(data: seq<Gene>, ind: seq<bool>): (r: map<int, int>)
    requires |ind| == |data|
    ensures Positions(data, Kept(data, ind, |ind|))
    ensures r == KeptMap(data, Kept(data, ind, |ind|))
    ensures Injective(r)
    ensures forall k :: k in r ==>
      exists j :: 0 <= j < |ind| && ind[j] && data[j].agent.id == k && data[j].task.id == r[k]
  {
    var r := DecodeFrom(data, ind, 0, map[], {});
    DecodeFromKept(data, ind, 0);
    DecodeRestEnds(data, ind);
    KeptInvariant(data, ind, |ind|);
    KeptMapEntries(data, ind, |ind|);
    r
  }

  /** The decoding of the search's best individual that ends `get_ga_assignment`. */
  function DecodeBest(agents: seq<Agent>, tasks: seq<Task>, best: seq<bool>): (r: map<int, int>)
    requires |best| == |agents| * |tasks|
    ensures Injective(r)
    ensures r.Keys <= AgentIds(agents) && r.Values <= TaskIds(tasks)
  {
    var data := Pairs(agents, tasks);
    var r := Decode(data, best);
    assert forall k :: k in r ==> k in AgentIds(agents) && r[k] in TaskIds(tasks) by {
      forall k | k in r
        ensures k in AgentIds(agents) && r[k] in TaskIds(tasks)
      {
        var j :| 0 <= j < |best| && best[j] && data[j].agent.id == k && data[j].task.id == r[k];
        assert data[j] in data;
        var a :| 0 <= a < |agents| && agents[a] == data[j].agent;
        var t :| 0 <= t < |tasks| && tasks[t] == data[j].task;
        assert AgentIdSeq(agents)[a] == k;
        assert TaskIdSeq(tasks)[t] == r[k];
      }
    }
    r
  }

  /** `get_ga_assignment` as written, given the sample the seeding draws and
      the best individual the search returns. The search seeds its population
      with `create_individual`, and seeding raises exactly when there are
      agents but no tasks. The library's own failures afterwards are not
      modelled. */
  function GaAssign(agents: seq<Agent>, tasks: seq<Task>, sample: seq<int>, best: seq<bool>)
    : (r: Result<map<int, int>, GaError>)
    requires |agents| <= |agents| * |tasks| ==> IsSample(sample, |agents| * |tasks|, |agents|)
    requires |best| == |agents| * |tasks|
    ensures r.Err? <==> |tasks| == 0 && |agents| > 0
    ensures r.Ok? ==> Injective(r.value)
    ensures r.Ok? ==> r.value.Keys <= AgentIds(agents) && r.value.Values <= TaskIds(tasks)
  {
    CreateIndividualForSnapshot(agents, tasks, sample);
    match CreateIndividual(|agents| * |tasks|, |agents|, sample)
    case Err(e) => Err(e)
    case Ok(_) => Ok(DecodeBest(agents, tasks, best))
  }

  /** Corrected: `get_ga_assignment` with the empty-task guard the swarm
      matcher has, so seeding never raises and no tasks gives `{}`. */
  function GaAssignGuarded(agents: seq<Agent>, tasks: seq<Task>, sample: seq<int>, best: seq<bool>)
    : (r: map<int, int>)
    requires |tasks| > 0 ==> IsSample(sample, |agents| * |tasks|, |agents|)
    requires |best| == |agents| * |tasks|
    ensures |tasks| == 0 ==> r == map[]
    ensures |tasks| > 0 ==> GaAssign(agents, tasks, sample, best) == Ok(r)
    ensures Injective(r)
    ensures r.Keys <= AgentIds(agents) && r.Values <= TaskIds(tasks)
  {
    if |tasks| == 0 then map[]
    else
      MulMonotone(1, |tasks|, |agents|);
      GaAssign(agents, tasks, sample, best).value
  }

  // Reference definition of the skip rule, shared by fitness and decode.

  /** Every position of `ks` is a gene. */
  ghost predicate Positions(data: seq<Gene>, ks: seq<nat>)
  {
    forall j :: 0 <= j < |ks| ==> ks[j] < |data|
  }

  /** Agent (task) ids of the genes at positions `ks`. */
  function KeptAgentIds(data: seq<Gene>, ks: seq<nat>): set<int>
    requires Positions(data, ks)
  {
    set k | k in ks :: data[k].agent.id
  }

  function KeptTaskIds(data: seq<Gene>, ks: seq<nat>): set<int>
    requires Positions(data, ks)
  {
    set k | k in ks :: data[k].task.id
  }

  /** The positions below `n` whose pair is kept: a set gene sharing neither its
      agent id nor its task id with an earlier kept gene. */
  function Kept(data: seq<Gene>, ind: seq<bool>, n: nat): (ks: seq<nat>)
    requires |ind| == |data| && n <= |ind|
    ensures forall j :: 0 <= j < |ks| ==> ks[j] < n && ind[ks[j]]
  {
    if n == 0 then []
    else
      var prev := Kept(data, ind, n - 1);
      var g := data[n - 1];
      if ind[n - 1] && g.agent.id !in KeptAgentIds(data, prev) && g.task.id !in KeptTaskIds(data, prev) then
        prev + [n - 1]
      else
        prev
  }

  /** The summed score of the kept genes. */
  function KeptTotal(data: seq<Gene>, ks: seq<nat>): real
    requires Positions(data, ks)
  {
    if |ks| == 0 then 0.0
    else
      var g := data[ks[|ks| - 1]];
      KeptTotal(data, ks[..|ks| - 1]) + GaScore(g.agent, g.task)
  }

  /** The map holding the kept pairs. */
  function KeptMap(data: seq<Gene>, ks: seq<nat>): map<int, int>
    requires Positions(data, ks)
  {
    if |ks| == 0 then map[]
    else
      var g := data[ks[|ks| - 1]];
      KeptMap(data, ks[..|ks| - 1])[g.agent.id := g.task.id]
  }

  /** Appending a kept position adds its agent and task ids. */
  lemma KeptIdsAppend(data: seq<Gene>, ks: seq<nat>, n: nat)
    requires Positions(data, ks)
    requires n < |data|
    ensures KeptAgentIds(data, ks + [n]) == KeptAgentIds(data, ks) + {data[n].agent.id}
    ensures KeptTaskIds(data, ks + [n]) == KeptTaskIds(data, ks) + {data[n].task.id}
  {
  }

  /** The score of the genes kept below `n` plus what the fitness loop adds from `n` on. */
  ghost function Remaining(data: seq<Gene>, ind: seq<bool>, n: nat): real
    requires |ind| == |data| && n <= |ind|
  {
    var ks := Kept(data, ind, n);
    assert Positions(data, ks);
    KeptTotal(data, ks) + FitnessFrom(data, ind, n, KeptAgentIds(data, ks), KeptTaskIds(data, ks))
  }

  /** The fitness loop from `n` on, started with the ids of the genes kept
      below `n`, ends with the total it would reach after the last gene. */
  lemma FitnessFromKept(data: seq<Gene>, ind: seq<bool>, n: nat)
    requires |ind| == |data| && n <= |ind|
    ensures Remaining(data, ind, n) == Remaining(data, ind, |ind|)
  {
    var k := n;
    while k < |ind|
      invariant n <= k <= |ind|
      invariant Remaining(data, ind, n) == Remaining(data, ind, k)
    {
      FitnessStep(data, ind, k);
      k := k + 1;
    }
  }

  /** Before the first gene nothing is kept, so the fitness loop is all that counts. */
  lemma RemainingAtStart(data: seq<Gene>, ind: seq<bool>)
    requires |ind| == |data|
    ensures Remaining(data, ind, 0) == FitnessFrom(data, ind, 0, {}, {})
  {
    assert Kept(data, ind, 0) == [];
    assert KeptAgentIds(data, []) == {} && KeptTaskIds(data, []) == {};
  }

  /** Past the last gene the fitness loop adds nothing. */
  lemma RemainingAtEnd(data: seq<Gene>, ind: seq<bool>)
    requires |ind| == |data|
    ensures Positions(data, Kept(data, ind, |ind|))
    ensures Remaining(data, ind, |ind|) == KeptTotal(data, Kept(data, ind, |ind|))
  {
  }

  /** One gene of the fitness loop moves its score, if kept, into the kept total. */
  lemma FitnessStep(data: seq<Gene>, ind: seq<bool>, n: nat)
    requires |ind| == |data| && n < |ind|
    ensures Remaining(data, ind, n) == Remaining(data, ind, n + 1)
  {
    var prev := Kept(data, ind, n);
    var g := data[n];
    if ind[n] && g.agent.id !in KeptAgentIds(data, prev) && g.task.id !in KeptTaskIds(data, prev) {
      var next := prev + [n];
      assert Kept(data, ind, n + 1) == next;
      assert next[..|next| - 1] == prev;
      KeptIdsAppend(data, prev, n);
    } else {
      assert Kept(data, ind, n + 1) == prev;
    }
  }

  /** The kept map is one-to-one and its values are the kept task ids. */
  lemma {:induction false} KeptInvariant(data: seq<Gene>, ind: seq<bool>, n: nat)
    requires |ind| == |data| && n <= |ind|
    ensures Positions(data, Kept(data, ind, n))
    ensures KeptMap(data, Kept(data, ind, n)).Keys == KeptAgentIds(data, Kept(data, ind, n))
    ensures KeptMap(data, Kept(data, ind, n)).Values == KeptTaskIds(data, Kept(data, ind, n))
    ensures Injective(KeptMap(data, Kept(data, ind, n)))
  {
    if n > 0 {
      KeptInvariant(data, ind, n - 1);
      var prev := Kept(data, ind, n - 1);
      var g := data[n - 1];
      if ind[n - 1] && g.agent.id !in KeptAgentIds(data, prev) && g.task.id !in KeptTaskIds(data, prev) {
        assert Kept(data, ind, n) == prev + [n - 1];
        KeptAppendInvariant(data, prev, n - 1);
      }
    }
  }

  /** Appending a gene whose ids are both new keeps the kept map one-to-one. */
  lemma KeptAppendInvariant(data: seq<Gene>, ks: seq<nat>, n: nat)
    requires Positions(data, ks) && n < |data|
    requires KeptMap(data, ks).Keys == KeptAgentIds(data, ks)
    requires KeptMap(data, ks).Values == KeptTaskIds(data, ks)
    requires Injective(KeptMap(data, ks))
    requires data[n].agent.id !in KeptAgentIds(data, ks) && data[n].task.id !in KeptTaskIds(data, ks)
    ensures Positions(data, ks + [n])
    ensures KeptMap(data, ks + [n]).Keys == KeptAgentIds(data, ks + [n])
    ensures KeptMap(data, ks + [n]).Values == KeptTaskIds(data, ks + [n])
    ensures Injective(KeptMap(data, ks + [n]))
  {
    var next := ks + [n];
    assert next[..|next| - 1] == ks;
    KeptIdsAppend(data, ks, n);
    FreshUpdate(KeptMap(data, ks), data[n].agent.id, data[n].task.id);
  }

  /** The decode loop from `n` on, started with the map and task ids of the
      genes kept below `n`. */
  ghost function DecodeRest(data: seq<Gene>, ind: seq<bool>, n: nat): map<int, int>
    requires |ind| == |data| && n <= |ind|
  {
    var ks := Kept(data, ind, n);
    assert Positions(data, ks);
    DecodeFrom(data, ind, n, KeptMap(data, ks), KeptTaskIds(data, ks))
  }

  /** One step of the decode loop, started with the genes kept below `n`, leads
      to the state of the genes kept below `n + 1`. */
  lemma DecodeStep(data: seq<Gene>, ind: seq<bool>, n: nat)
    requires |ind| == |data| && n < |ind|
    ensures DecodeRest(data, ind, n) == DecodeRest(data, ind, n + 1)
  {
    KeptInvariant(data, ind, n);
    var prev := Kept(data, ind, n);
    var g := data[n];
    if ind[n] && g.agent.id !in KeptAgentIds(data, prev) && g.task.id !in KeptTaskIds(data, prev) {
      var next := prev + [n];
      assert Kept(data, ind, n + 1) == next;
      assert next[..|next| - 1] == prev;
      KeptIdsAppend(data, prev, n);
    } else {
      assert Kept(data, ind, n + 1) == prev;
    }
  }

  /** The decode loop from `n` on ends where the loop past the last gene does. */
  lemma DecodeFromKept(data: seq<Gene>, ind: seq<bool>, n: nat)
    requires |ind| == |data| && n <= |ind|
    ensures DecodeRest(data, ind, n) == DecodeRest(data, ind, |ind|)
  {
    var k := n;
    while k < |ind|
      invariant n <= k <= |ind|
      invariant DecodeRest(data, ind, n) == DecodeRest(data, ind, k)
    {
      DecodeStep(data, ind, k);
      k := k + 1;
    }
  }

  /** Decoding starts from the empty map and ends with the map of all kept genes. */
  lemma DecodeRestEnds(data: seq<Gene>, ind: seq<bool>)
    requires |ind| == |data|
    ensures Positions(data, Kept(data, ind, |ind|))
    ensures DecodeRest(data, ind, 0) == DecodeFrom(data, ind, 0, map[], {})
    ensures DecodeRest(data, ind, |ind|) == KeptMap(data, Kept(data, ind, |ind|))
  {
    assert Kept(data, ind, 0) == [];
    assert KeptTaskIds(data, []) == {};
  }

  /** Every entry of the kept map is the pair of a kept, set gene. */
  lemma KeptMapEntries(data: seq<Gene>, ind: seq<bool>, n: nat)
    requires |ind| == |data| && n <= |ind|
    ensures Positions(data, Kept(data, ind, n))
    ensures forall k :: k in KeptMap(data, Kept(data, ind, n)) ==>
      exists j :: 0 <= j < |ind| && ind[j] && data[j].agent.id == k && data[j].task.id == KeptMap(data, Kept(data, ind, n))[k]
  {
    SetGenesMapEntries(data, ind, Kept(data, ind, n));
  }

  /** The map built from positions of set genes holds only their pairs. */
  lemma {:induction false} SetGenesMapEntries(data: seq<Gene>, ind: seq<bool>, ks: seq<nat>)
    requires |ind| == |data|
    requires forall j :: 0 <= j < |ks| ==> ks[j] < |ind| && ind[ks[j]]
    ensures Positions(data, ks)
    ensures forall k :: k in KeptMap(data, ks) ==>
      exists j :: 0 <= j < |ind| && ind[j] && data[j].agent.id == k && data[j].task.id == KeptMap(data, ks)[k]
  {
    if |ks| > 0 {
      var prev := ks[..|ks| - 1];
      SetGenesMapEntries(data, ind, prev);
      var last := ks[|ks| - 1];
      forall k | k in KeptMap(data, ks)
        ensures exists j :: 0 <= j < |ind| && ind[j] && data[j].agent.id == k && data[j].task.id == KeptMap(data, ks)[k]
      {
        if k == data[last].agent.id {
          assert data[last].task.id == KeptMap(data, ks)[k];
        } else {
          assert k in KeptMap(data, prev) && KeptMap(data, prev)[k] == KeptMap(data, ks)[k];
        }
      }
    }
  }

  /** An individual without set bits scores 0 and decodes to the empty map. */
  lemma AllZeroIndividual(data: seq<Gene>, ind: seq<bool>)
    requires |ind| == |data|
    requires forall i :: 0 <= i < |ind| ==> !ind[i]
    ensures Fitness(data, ind) == 0.0
    ensures Decode(data, ind) == map[]
  {
    NothingKept(data, ind, |ind|);
  }

  /** Without set bits below `n`, no gene below `n` is kept. */
  lemma {:induction false} NothingKept(data: seq<Gene>, ind: seq<bool>, n: nat)
    requires |ind| == |data| && n <= |ind|
    requires forall i :: 0 <= i < n ==> !ind[i]
    ensures Kept(data, ind, n) == []
  {
    if n > 0 {
      NothingKept(data, ind, n - 1);
    }
  }

  // Seeding an individual.

  datatype GaError = SampleLargerThanPopulation

  /** A draw of `random.sample(range(population), k)`: `k` distinct values of the range. */
  ghost predicate IsSample(sample: seq<int>, population: nat, k: nat)
  {
    |sample| == k && Distinct(sample) && forall x :: x in sample ==> 0 <= x < population
  }

  /** Number of set bits. */
  function CountOnes(ind: seq<bool>): nat
  {
    if |ind| == 0 then 0
    else CountOnes(ind[..|ind| - 1]) + (if ind[|ind| - 1] then 1 else 0)
  }

  /** Sample values below `n`. */
  function Below(sample: seq<int>, n: nat): set<int>
  {
    set x | x in sample && 0 <= x < n
  }

  /** The indicator of a sample over `range(n)` has one set bit per sampled value below `n`. */
  lemma {:induction false} CountIndicator(sample: seq<int>, n: nat)
    ensures CountOnes(seq(n, i => i in sample)) == |Below(sample, n)|
  {
    if n > 0 {
      var ind := seq(n, i => i in sample);
      CountIndicator(sample, n - 1);
      assert ind[..n - 1] == seq(n - 1, i => i in sample);
      if n - 1 in sample {
        assert Below(sample, n) == Below(sample, n - 1) + {n - 1};
      } else {
        assert Below(sample, n) == Below(sample, n - 1);
      }
    }
  }

  /** `create_individual(data)` given the sample the random source draws:
      `random.sample` raises when asked for more values than there are genes. */
  function CreateIndividual(numGenes: nat, numAgents: nat, sample: seq<int>): (r: Result<seq<bool>, GaError>)
    requires numAgents <= numGenes ==> IsSample(sample, numGenes, numAgents)
    ensures r.Err? <==> numAgents > numGenes
    ensures r.Ok? ==> |r.value| == numGenes && CountOnes(r.value) == numAgents
    ensures r.Ok? ==> forall i :: 0 <= i < numGenes ==> (r.value[i] <==> i in sample)
  {
    if numAgents > numGenes then Err(SampleLargerThanPopulation)
    else
      CountIndicator(sample, numGenes);
      assert Below(sample, numGenes) == Elems(sample);
      DistinctCard(sample);
      Ok(seq(numGenes, i => i in sample))
  }

  /** Seeding for a snapshot: one gene per (agent, task) pair and one set bit per
      agent; it raises when there are agents but no tasks. */
  lemma CreateIndividualForSnapshot(agents: seq<Agent>, tasks: seq<Task>, sample: seq<int>)
    requires |agents| <= |agents| * |tasks| ==> IsSample(sample, |agents| * |tasks|, |agents|)
    ensures |tasks| == 0 && |agents| > 0 ==> CreateIndividual(|agents| * |tasks|, |agents|, sample).Err?
    ensures |tasks| > 0 ==> CreateIndividual(|agents| * |tasks|, |agents|, sample).Ok?
  {
    if |tasks| > 0 {
      assert |agents| * |tasks| >= |agents| * 1;
    }
  }
}

=== FILE: greedy.dfy ===
/** The deterministic greedy matcher `assign_tasks` of main.py: every (agent, task)
    pair is scored, pushed on a min-heap keyed `(-score, agent id, task id, score)`
    and popped in that order; a pair is taken when neither side is claimed yet. */
module Greedy {
  import opened Common
  import opened Entities

  /** The scoring oracle `(health, Manhattan distance, urgency) -> score`: the fuzzy
      engine or one of the simulated scorers, supplied by the caller. */
  type Scorer = (real, int, real) -> real

  /** One heap entry; the key `(-score, agentId, taskId, score)` is derived from it. */
  datatype Candidate = Candidate(score: real, agentId: int, taskId: int)

  /** The entry pushed for one (agent, task) pair. */
  function Scored(a: Agent, t: Task, score: Scorer): Candidate
  {
    Candidate(score(a.health, Manhattan(a, t), t.urgency), a.id, t.id)
  }

  /** Heap order: `c` pops no later than `d` — higher score first, then the lower
      agent id, then the lower task id. */
  predicate PopsFirst(c: Candidate, d: Candidate)
  {
    || c.score > d.score
    || (c.score == d.score && c.agentId < d.agentId)
    || (c.score == d.score && c.agentId == d.agentId && c.taskId <= d.taskId)
  }

  /** The heap key orders entries totally: two entries that each pop first are equal. */
  lemma PopsFirstIsTotalOrder(c: Candidate, d: Candidate, e: Candidate)
    ensures PopsFirst(c, c)
    ensures PopsFirst(c, d) || PopsFirst(d, c)
    ensures PopsFirst(c, d) && PopsFirst(d, e) ==> PopsFirst(c, e)
    ensures PopsFirst(c, d) && PopsFirst(d, c) ==> c == d
  {
  }

  /** The heap pushes of one agent, in task order. */
  function RowCandidates(a: Agent, tasks: seq<Task>, score: Scorer): seq<Candidate>
  {
    seq(|tasks|, j requires 0 <= j < |tasks| => Scored(a, tasks[j], score))
  }

  /** `c` is the entry pushed for some (agent, task) pair of the snapshot. */
  ghost predicate ScoredPair(agents: seq<Agent>, tasks: seq<Task>, score: Scorer, c: Candidate)
  {
    exists i, j :: 0 <= i < |agents| && 0 <= j < |tasks| && c == Scored(agents[i], tasks[j], score)
  }

  /** All heap pushes of main.py:115-124, agents outer and tasks inner: one
      scored entry per (agent, task) pair of the snapshot, and nothing else. */
  function Candidates(agents: seq<Agent>, tasks: seq<Task>, score: Scorer): (r: seq<Candidate>)
    ensures |r| == |agents| * |tasks|
    ensures forall c :: c in r ==> ScoredPair(agents, tasks, score, c)
    ensures forall c :: c in r ==> c.agentId in AgentIds(agents) && c.taskId in TaskIds(tasks)
    ensures |tasks| == 0 ==> r == []
  {
    if |agents| == 0 then []
    else
      var row := RowCandidates(agents[0], tasks, score);
      var rest := Candidates(agents[1..], tasks, score);
      CandidatesStep(agents, tasks, score, row, rest);
      CandidateIds(agents, tasks, score, row + rest);
      row + rest
  }

  /** The first agent's pushes followed by the rest's are the pushes of all agents. */
  lemma CandidatesStep(agents: seq<Agent>, tasks: seq<Task>, score: Scorer, row: seq<Candidate>,
                       rest: seq<Candidate>)
    requires |agents| > 0 && row == RowCandidates(agents[0], tasks, score)
    requires |rest| == (|agents| - 1) * |tasks|
    requires forall c :: c in rest ==> ScoredPair(agents[1..], tasks, score, c)
    ensures |row + rest| == |agents| * |tasks|
    ensures |tasks| == 0 ==> row + rest == []
    ensures forall c :: c in row + rest ==> ScoredPair(agents, tasks, score, c)
  {
    assert |agents| * |tasks| == |tasks| + (|agents| - 1) * |tasks|;
    forall c | c in row + rest
      ensures ScoredPair(agents, tasks, score, c)
    {
      if c in row {
        var j :| 0 <= j < |row| && row[j] == c;
        assert c == Scored(agents[0], tasks[j], score);
      } else {
        var i, j :| 0 <= i < |agents| - 1 && 0 <= j < |tasks| && c == Scored(agents[1..][i], tasks[j], score);
        assert agents[1..][i] == agents[i + 1];
      }
    }
  }

  /** An entry scored for a snapshot pair names a snapshot agent and task. */
  lemma CandidateIds(agents: seq<Agent>, tasks: seq<Task>, score: Scorer, r: seq<Candidate>)
    requires forall c :: c in r ==> ScoredPair(agents, tasks, score, c)
    ensures forall c :: c in r ==> c.agentId in AgentIds(agents) && c.taskId in TaskIds(tasks)
  {
    forall c | c in r
      ensures c.agentId in AgentIds(agents) && c.taskId in TaskIds(tasks)
    {
      var i, j :| 0 <= i < |agents| && 0 <= j < |tasks| && c == Scored(agents[i], tasks[j], score);
      assert AgentIdSeq(agents)[i] == c.agentId;
      assert TaskIdSeq(tasks)[j] == c.taskId;
    }
  }

  /** Every (agent, task) pair of the snapshot is pushed. */
  lemma {:induction false} CandidatesComplete(agents: seq<Agent>, tasks: seq<Task>, score: Scorer, i: int, j: int)
    requires 0 <= i < |agents| && 0 <= j < |tasks|
    ensures Scored(agents[i], tasks[j], score) in Candidates(agents, tasks, score)
    decreases i
  {
    var row := RowCandidates(agents[0], tasks, score);
    if i == 0 {
      assert row[j] == Scored(agents[0], tasks[j], score);
    } else {
      CandidatesComplete(agents[1..], tasks, score, i - 1, j);
      assert agents[1..][i - 1] == agents[i];
    }
  }

  /** Sorted in heap pop order. */
  ghost predicate InPopOrder(s: seq<Candidate>)
  {
    forall i, j :: 0 <= i < j < |s| ==> PopsFirst(s[i], s[j])
  }

  function Insert(c: Candidate, s: seq<Candidate>): (r: seq<Candidate>)
    requires InPopOrder(s)
    ensures InPopOrder(r) && multiset(r) == multiset(s) + multiset{c}
  {
    if |s| == 0 || PopsFirst(c, s[0]) then [c] + s
    else
      var rest := Insert(c, s[1..]);
      InsertBehind(c, s, rest);
      [s[0]] + rest
  }

  /** Putting the head of `s` in front of a heap order of the rest plus `c`,
      where `c` pops after that head, gives a heap order of `s` plus `c`. */
  lemma InsertBehind(c: Candidate, s: seq<Candidate>, rest: seq<Candidate>)
    requires |s| > 0 && InPopOrder(s) && !PopsFirst(c, s[0])
    requires InPopOrder(rest) && multiset(rest) == multiset(s[1..]) + multiset{c}
    ensures InPopOrder([s[0]] + rest) && multiset([s[0]] + rest) == multiset(s) + multiset{c}
  {
    assert s == [s[0]] + s[1..];
    PopsFirstIsTotalOrder(c, s[0], c);
    forall k | 0 <= k < |rest|
      ensures PopsFirst(s[0], rest[k])
    {
      assert rest[k] in multiset(rest);
      if rest[k] != c {
        assert rest[k] in multiset(s[1..]);
        var m :| 0 <= m < |s[1..]| && s[1..][m] == rest[k];
        assert s[m + 1] == rest[k];
      }
    }
    var r := [s[0]] + rest;
    forall i, j | 0 <= i < j < |r|
      ensures PopsFirst(r[i], r[j])
    {
      assert r[j] == rest[j - 1];
      if i > 0 {
        assert r[i] == rest[i - 1];
      }
    }
  }

  /** The order in which the heap releases its entries. */
  function PopOrder(s: seq<Candidate>): (r: seq<Candidate>)
    ensures InPopOrder(r) && multiset(r) == multiset(s)
  {
    if |s| == 0 then []
    else
      assert s == [s[0]] + s[1..];
      Insert(s[0], PopOrder(s[1..]))
  }

  /** Any arrangement in heap order of the same entries is the pop order: the
      key leaves the heap no choice. */
  lemma {:induction false} PopOrderIsUnique(s1: seq<Candidate>, s2: seq<Candidate>)
    requires InPopOrder(s1) && InPopOrder(s2)
    requires multiset(s1) == multiset(s2)
    ensures s1 == s2
    decreases |s1|
  {
    if |s1| > 0 {
      HeadsAgree(s1, s2);
      TailMultiset(s1);
      TailMultiset(s2);
      TailInPopOrder(s1);
      TailInPopOrder(s2);
      PopOrderIsUnique(s1[1..], s2[1..]);
      SameHeadAndTail(s1, s2);
    } else {
      assert |multiset(s2)| == 0;
    }
  }

  /** Two heap orders of the same entries start with the same entry. */
  lemma HeadsAgree(s1: seq<Candidate>, s2: seq<Candidate>)
    requires InPopOrder(s1) && InPopOrder(s2)
    requires multiset(s1) == multiset(s2) && |s1| > 0
    ensures |s2| == |s1| && s1[0] == s2[0]
  {
    assert |multiset(s1)| == |s1| && |multiset(s2)| == |s2|;
    assert s1[0] in multiset(s2);
    assert s2[0] in multiset(s1);
    var a :| 0 <= a < |s2| && s2[a] == s1[0];
    var b :| 0 <= b < |s1| && s1[b] == s2[0];
    assert PopsFirst(s2[0], s1[0]) by {
      if a > 0 {
        assert PopsFirst(s2[0], s2[a]);
      }
    }
    assert PopsFirst(s1[0], s2[0]) by {
      if b > 0 {
        assert PopsFirst(s1[0], s1[b]);
      }
    }
    PopsFirstIsTotalOrder(s1[0], s2[0], s1[0]);
  }

  lemma SameHeadAndTail(s1: seq<Candidate>, s2: seq<Candidate>)
    requires |s1| > 0 && |s2| > 0 && s1[0] == s2[0] && s1[1..] == s2[1..]
    ensures s1 == s2
  {
    assert s1 == [s1[0]] + s1[1..];
    assert s2 == [s2[0]] + s2[1..];
  }

  lemma TailMultiset(s: seq<Candidate>)
    requires |s| > 0
    ensures multiset(s[1..]) == multiset(s) - multiset{s[0]}
  {
    assert s == [s[0]] + s[1..];
  }

  lemma TailInPopOrder(s: seq<Candidate>)
    requires InPopOrder(s) && |s| > 0
    ensures InPopOrder(s[1..])
  {
    forall i, j | 0 <= i < j < |s[1..]|
      ensures PopsFirst(s[1..][i], s[1..][j])
    {
      assert s[1..][i] == s[i + 1] && s[1..][j] == s[j + 1];
    }
  }

  /** The entry's pair is in the assignment map. */
  predicate Holds(r: map<int, int>, c: Candidate)
  {
    c.agentId in r && r[c.agentId] == c.taskId
  }

  /** The two entries share their agent or their task. */
  predicate Conflicts(c: Candidate, d: Candidate)
  {
    c.agentId == d.agentId || c.taskId == d.taskId
  }

  /** Reference characterisation of a greedy matching of the pop order `s`: a
      one-to-one map whose every pair comes from an entry of `s`, and in which an
      entry is left out only when an earlier kept entry shares its agent or task. */
  ghost predicate GreedyFor(s: seq<Candidate>, r: map<int, int>)
  {
    && Injective(r)
    && (forall k :: k in r ==> Sourced(s, r, k, |s|))
    && (forall i :: 0 <= i < |s| && !Holds(r, s[i]) ==> Blocked(s, r, i))
  }

  /** Agent `k`'s pair in `r` is one of the first `n` entries of `s`. */
  ghost predicate Sourced(s: seq<Candidate>, r: map<int, int>, k: int, n: nat)
    requires n <= |s|
  {
    exists j :: 0 <= j < n && Holds(r, s[j]) && s[j].agentId == k
  }

  /** An entry before position `i` is in `r` and shares its agent or task with `s[i]`. */
  ghost predicate Blocked(s: seq<Candidate>, r: map<int, int>, i: nat)
    requires i < |s|
  {
    exists j :: 0 <= j < i && Holds(r, s[j]) && Conflicts(s[j], s[i])
  }

  /** The loop of main.py:130-135 over the entries not yet popped. It stops when
      the heap is empty or as many agent ids are claimed as there are agents. */
  function Pop(pending: seq<Candidate>, agentCount: nat, usedAgents: set<int>, usedTasks: set<int>,
               acc: map<int, int>): (r: map<int, int>)
    requires acc.Keys == usedAgents && acc.Values == usedTasks && Injective(acc)
    requires |usedAgents| == |usedTasks|
    ensures Injective(r) && |r.Keys| == |r.Values|
    ensures forall k :: k in acc ==> k in r && r[k] == acc[k]
    ensures forall k :: k in r && k !in acc ==>
      exists c :: c in pending && c.agentId == k && c.taskId == r[k]
    decreases |pending|
  {
    if |pending| == 0 || |usedAgents| >= agentCount then acc
    else
      var c := pending[0];
      if c.agentId !in usedAgents && c.taskId !in usedTasks then
        var acc' := acc[c.agentId := c.taskId];
        FreshUpdate(acc, c.agentId, c.taskId);
        AddFresh(usedAgents, c.agentId);
        AddFresh(usedTasks, c.taskId);
        var r := Pop(pending[1..], agentCount, usedAgents + {c.agentId}, usedTasks + {c.taskId}, acc');
        ExtendsThrough(pending, acc, acc', r);
        r
      else
        var r := Pop(pending[1..], agentCount, usedAgents, usedTasks, acc);
        ExtendsThrough(pending, acc, acc, r);
        r
  }

  /** A map that extends the state after popping `pending[0]`, with its new
      pairs drawn from the rest, extends the state before it from all of `pending`. */
  lemma ExtendsThrough(pending: seq<Candidate>, acc: map<int, int>, next: map<int, int>, r: map<int, int>)
    requires |pending| > 0
    requires next == acc || (pending[0].agentId !in acc && next == acc[pending[0].agentId := pending[0].taskId])
    requires forall k :: k in next ==> k in r && r[k] == next[k]
    requires forall k :: k in r && k !in next ==>
      exists c :: c in pending[1..] && c.agentId == k && c.taskId == r[k]
    ensures forall k :: k in acc ==> k in r && r[k] == acc[k]
    ensures forall k :: k in r && k !in acc ==>
      exists c :: c in pending && c.agentId == k && c.taskId == r[k]
  {
    forall k | k in r && k !in acc
      ensures exists c :: c in pending && c.agentId == k && c.taskId == r[k]
    {
      if k in next {
        assert pending[0] in pending;
      } else {
        var c :| c in pending[1..] && c.agentId == k && c.taskId == r[k];
        assert c in pending;
      }
    }
  }

  /** `assign_tasks`: the map is rebuilt from empty (main.py:128), so earlier
      assignments are not an input. */
  function AssignTasks(agents: seq<Agent>, tasks: seq<Task>, score: Scorer): (r: map<int, int>)
    ensures Injective(r)
    ensures r.Keys <= AgentIds(agents) && r.Values <= TaskIds(tasks)
    ensures |r.Keys| == |r.Values|
    ensures |tasks| == 0 ==> r == map[]
  {
    var cs := Candidates(agents, tasks, score);
    var s := PopOrder(cs);
    var r := Pop(s, |agents|, {}, {}, map[]);
    DrawnFromCandidates(agents, tasks, cs, s, r);
    r
  }

  /** A map whose every pair is an entry of a reordering of the candidates pairs
      an agent of the snapshot with a task of the snapshot. */
  lemma DrawnFromCandidates(agents: seq<Agent>, tasks: seq<Task>, cs: seq<Candidate>, s: seq<Candidate>,
                            r: map<int, int>)
    requires forall c :: c in cs ==> c.agentId in AgentIds(agents) && c.taskId in TaskIds(tasks)
    requires multiset(s) == multiset(cs)
    requires forall k :: k in r ==> exists c :: c in s && c.agentId == k && c.taskId == r[k]
    ensures r.Keys <= AgentIds(agents) && r.Values <= TaskIds(tasks)
  {
    forall k | k in r
      ensures k in AgentIds(agents) && r[k] in TaskIds(tasks)
    {
      var c :| c in s && c.agentId == k && c.taskId == r[k];
      assert c in multiset(cs);
    }
  }

  /** The greedy conditions restricted to the first `i` entries of `s`. */
  ghost predicate GreedyPrefix(s: seq<Candidate>, i: nat, acc: map<int, int>)
    requires i <= |s|
  {
    && (forall k :: k in acc ==> Sourced(s, acc, k, i))
    && (forall j :: 0 <= j < i && !Holds(acc, s[j]) ==> Blocked(s, acc, j))
  }

  /** Taking an unclaimed entry extends the greedy prefix by one. */
  lemma AcceptKeepsGreedy(s: seq<Candidate>, i: nat, acc: map<int, int>)
    requires i < |s| && GreedyPrefix(s, i, acc)
    requires s[i].agentId !in acc
    ensures GreedyPrefix(s, i + 1, acc[s[i].agentId := s[i].taskId])
  {
    var c := s[i];
    var acc' := acc[c.agentId := c.taskId];
    forall k | k in acc'
      ensures Sourced(s, acc', k, i + 1)
    {
      if k != c.agentId {
        var j :| 0 <= j < i && Holds(acc, s[j]) && s[j].agentId == k;
        assert Holds(acc', s[j]);
      } else {
        assert Holds(acc', s[i]);
      }
    }
    forall j | 0 <= j < i + 1 && !Holds(acc', s[j])
      ensures Blocked(s, acc', j)
    {
      if Holds(acc, s[j]) {
        assert Holds(acc', s[j]);
      } else {
        var j' :| 0 <= j' < j && Holds(acc, s[j']) && Conflicts(s[j'], s[j]);
        assert Holds(acc', s[j']);
      }
    }
  }

  /** Skipping an entry whose agent or task is claimed keeps the greedy prefix. */
  lemma RejectKeepsGreedy(s: seq<Candidate>, i: nat, acc: map<int, int>)
    requires i < |s| && GreedyPrefix(s, i, acc)
    requires s[i].agentId in acc || s[i].taskId in acc.Values
    ensures GreedyPrefix(s, i + 1, acc)
  {
    var c := s[i];
    if !Holds(acc, c) {
      if c.agentId in acc {
        var j' :| 0 <= j' < i && Holds(acc, s[j']) && s[j'].agentId == c.agentId;
        assert Conflicts(s[j'], s[i]);
      } else {
        ValueHasKey(acc, c.taskId);
        var k :| k in acc && acc[k] == c.taskId;
        var j' :| 0 <= j' < i && Holds(acc, s[j']) && s[j'].agentId == k;
        assert Conflicts(s[j'], s[i]);
      }
    }
  }

  /** Once every agent that occurs is claimed, the rest of the entries are all blocked. */
  lemma StopIsGreedy(s: seq<Candidate>, i: nat, acc: map<int, int>)
    requires i <= |s| && GreedyPrefix(s, i, acc) && Injective(acc)
    requires forall j :: i <= j < |s| ==> s[j].agentId in acc
    ensures GreedyFor(s, acc)
  {
    forall j | i <= j < |s| && !Holds(acc, s[j])
      ensures Blocked(s, acc, j)
    {
      var j' :| 0 <= j' < i && Holds(acc, s[j']) && s[j'].agentId == s[j].agentId;
    }
  }

  /** One step of the loop that takes the entry at position `i`. */
  lemma PopAccepts(s: seq<Candidate>, i: nat, agentCount: nat, usedAgents: set<int>,
                   usedTasks: set<int>, acc: map<int, int>)
    requires i < |s| && |usedAgents| < agentCount
    requires acc.Keys == usedAgents && acc.Values == usedTasks && Injective(acc)
    requires |usedAgents| == |usedTasks|
    requires s[i].agentId !in usedAgents && s[i].taskId !in usedTasks
    requires Injective(acc[s[i].agentId := s[i].taskId])
    ensures Pop(s[i..], agentCount, usedAgents, usedTasks, acc)
         == Pop(s[i + 1..], agentCount, usedAgents + {s[i].agentId}, usedTasks + {s[i].taskId},
                acc[s[i].agentId := s[i].taskId])
  {
    assert s[i..][0] == s[i] && s[i..][1..] == s[i + 1..];
  }

  /** One step of the loop that skips the entry at position `i`. */
  lemma PopRejects(s: seq<Candidate>, i: nat, agentCount: nat, usedAgents: set<int>,
                   usedTasks: set<int>, acc: map<int, int>)
    requires i < |s| && |usedAgents| < agentCount
    requires acc.Keys == usedAgents && acc.Values == usedTasks && Injective(acc)
    requires |usedAgents| == |usedTasks|
    requires s[i].agentId in usedAgents || s[i].taskId in usedTasks
    requires GreedyPrefix(s, i, acc)
    ensures GreedyPrefix(s, i + 1, acc)
    ensures Pop(s[i..], agentCount, usedAgents, usedTasks, acc)
         == Pop(s[i + 1..], agentCount, usedAgents, usedTasks, acc)
  {
    RejectKeepsGreedy(s, i, acc);
    assert s[i..][0] == s[i] && s[i..][1..] == s[i + 1..];
  }

  /** Once the rest is empty or every agent is claimed, the loop returns what it has. */
  lemma PopStops(s: seq<Candidate>, i: nat, agentCount: nat, usedAgents: set<int>,
                 usedTasks: set<int>, acc: map<int, int>, agentIds: set<int>)
    requires i <= |s| && (i == |s| || |usedAgents| >= agentCount)
    requires acc.Keys == usedAgents && acc.Values == usedTasks && Injective(acc)
    requires |usedAgents| == |usedTasks|
    requires GreedyPrefix(s, i, acc)
    requires usedAgents <= agentIds && |agentIds| <= agentCount
    requires forall j :: 0 <= j < |s| ==> s[j].agentId in agentIds
    ensures GreedyFor(s, Pop(s[i..], agentCount, usedAgents, usedTasks, acc))
  {
    if i == |s| {
      assert s[i..] == [];
    } else {
      LargeSubsetIsAll(usedAgents, agentIds);
    }
    StopIsGreedy(s, i, acc);
  }

  /** Popping the rest of `s` from position `i` completes a greedy matching of
      `s`, given one of its first `i` entries so far. `agentIds` bounds the agent
      ids that occur, which makes the early stop of the loop harmless. */
  lemma {:induction false} PopIsGreedy(s: seq<Candidate>, i: nat, agentCount: nat, usedAgents: set<int>,
                                       usedTasks: set<int>, acc: map<int, int>, agentIds: set<int>)
    requires i <= |s|
    requires acc.Keys == usedAgents && acc.Values == usedTasks && Injective(acc)
    requires |usedAgents| == |usedTasks|
    requires GreedyPrefix(s, i, acc)
    requires usedAgents <= agentIds && |agentIds| <= agentCount
    requires forall j :: 0 <= j < |s| ==> s[j].agentId in agentIds
    ensures GreedyFor(s, Pop(s[i..], agentCount, usedAgents, usedTasks, acc))
    decreases |s| - i, 2
  {
    if i == |s| || |usedAgents| >= agentCount {
      PopStops(s, i, agentCount, usedAgents, usedTasks, acc, agentIds);
    } else {
      PopStepIsGreedy(s, i, agentCount, usedAgents, usedTasks, acc, agentIds);
    }
  }

  /** The case of `PopIsGreedy` where the loop pops entry `i`. */
  lemma {:induction false} PopStepIsGreedy(s: seq<Candidate>, i: nat, agentCount: nat, usedAgents: set<int>,
                                           usedTasks: set<int>, acc: map<int, int>, agentIds: set<int>)
    requires i < |s| && |usedAgents| < agentCount
    requires acc.Keys == usedAgents && acc.Values == usedTasks && Injective(acc)
    requires |usedAgents| == |usedTasks|
    requires GreedyPrefix(s, i, acc)
    requires usedAgents <= agentIds && |agentIds| <= agentCount
    requires forall j :: 0 <= j < |s| ==> s[j].agentId in agentIds
    ensures GreedyFor(s, Pop(s[i..], agentCount, usedAgents, usedTasks, acc))
    decreases |s| - i, 1
  {
    if s[i].agentId !in usedAgents && s[i].taskId !in usedTasks {
      var c := s[i];
      FreshUpdate(acc, c.agentId, c.taskId);
      AddFresh(usedAgents, c.agentId);
      AddFresh(usedTasks, c.taskId);
      AcceptKeepsGreedy(s, i, acc);
      PopAccepts(s, i, agentCount, usedAgents, usedTasks, acc);
      PopIsGreedy(s, i + 1, agentCount, usedAgents + {c.agentId}, usedTasks + {c.taskId},
                  acc[c.agentId := c.taskId], agentIds);
    } else {
      PopRejectIsGreedy(s, i, agentCount, usedAgents, usedTasks, acc, agentIds);
    }
  }

  /** The case of `PopStepIsGreedy` where entry `i` is skipped. */
  lemma {:induction false} PopRejectIsGreedy(s: seq<Candidate>, i: nat, agentCount: nat, usedAgents: set<int>,
                                             usedTasks: set<int>, acc: map<int, int>, agentIds: set<int>)
    requires i < |s| && |usedAgents| < agentCount
    requires s[i].agentId in usedAgents || s[i].taskId in usedTasks
    requires acc.Keys == usedAgents && acc.Values == usedTasks && Injective(acc)
    requires |usedAgents| == |usedTasks|
    requires GreedyPrefix(s, i, acc)
    requires usedAgents <= agentIds && |agentIds| <= agentCount
    requires forall j :: 0 <= j < |s| ==> s[j].agentId in agentIds
    ensures GreedyFor(s, Pop(s[i..], agentCount, usedAgents, usedTasks, acc))
    decreases |s| - i, 0
  {
    PopRejects(s, i, agentCount, usedAgents, usedTasks, acc);
    PopIsGreedy(s, i + 1, agentCount, usedAgents, usedTasks, acc, agentIds);
  }

  /** `assign_tasks` yields the greedy matching of the heap's pop order. */
  lemma AssignTasksIsGreedy(agents: seq<Agent>, tasks: seq<Task>, score: Scorer)
    ensures GreedyFor(PopOrder(Candidates(agents, tasks, score)), AssignTasks(agents, tasks, score))
  {
    var cs := Candidates(agents, tasks, score);
    var s := PopOrder(cs);
    forall j | 0 <= j < |s|
      ensures s[j].agentId in AgentIds(agents)
    {
      assert s[j] in multiset(cs);
    }
    ElemsCard(AgentIdSeq(agents));
    assert s[0..] == s;
    PopIsGreedy(s, 0, |agents|, {}, {}, map[], AgentIds(agents));
  }

  /** Two greedy matchings of the same pop order agree on every entry. */
  lemma {:induction false} GreedyForAgreesOnEntries(s: seq<Candidate>, r1: map<int, int>, r2: map<int, int>, i: nat)
    requires GreedyFor(s, r1) && GreedyFor(s, r2)
    requires i < |s|
    ensures Holds(r1, s[i]) <==> Holds(r2, s[i])
    decreases i
  {
    forall j | 0 <= j < i
      ensures Holds(r1, s[j]) <==> Holds(r2, s[j])
    {
      GreedyForAgreesOnEntries(s, r1, r2, j);
    }
  }

  /** The reference characterisation fixes the matching: there is only one
      greedy matching of a pop order. */
  lemma GreedyForIsUnique(s: seq<Candidate>, r1: map<int, int>, r2: map<int, int>)
    requires GreedyFor(s, r1) && GreedyFor(s, r2)
    ensures r1 == r2
  {
    forall k | k in r1
      ensures k in r2 && r2[k] == r1[k]
    {
      var i :| 0 <= i < |s| && Holds(r1, s[i]) && s[i].agentId == k;
      GreedyForAgreesOnEntries(s, r1, r2, i);
    }
    forall k | k in r2
      ensures k in r1
    {
      var i :| 0 <= i < |s| && Holds(r2, s[i]) && s[i].agentId == k;
      GreedyForAgreesOnEntries(s, r1, r2, i);
    }
  }

  /** In a greedy matching every entry's agent is assigned or its task is taken. */
  lemma GreedyForIsMaximal(s: seq<Candidate>, r: map<int, int>, p: int)
    requires GreedyFor(s, r) && 0 <= p < |s|
    ensures s[p].agentId in r || s[p].taskId in r.Values
  {
    if !Holds(r, s[p]) {
      var q :| 0 <= q < p && Holds(r, s[q]) && Conflicts(s[q], s[p]);
      assert r[s[q].agentId] in r.Values;
    }
  }

  /** The result is a maximal matching: for every agent and task of the
      snapshot, the agent is assigned or the task is taken. */
  lemma AssignTasksIsMaximal(agents: seq<Agent>, tasks: seq<Task>, score: Scorer, i: int, j: int)
    requires 0 <= i < |agents| && 0 <= j < |tasks|
    ensures agents[i].id in AssignTasks(agents, tasks, score)
         || tasks[j].id in AssignTasks(agents, tasks, score).Values
  {
    var s := PopOrder(Candidates(agents, tasks, score));
    CandidatesComplete(agents, tasks, score, i, j);
    var c := Scored(agents[i], tasks[j], score);
    assert c in multiset(s);
    var p :| 0 <= p < |s| && s[p] == c;
    AssignTasksIsGreedy(agents, tasks, score);
    GreedyForIsMaximal(s, AssignTasks(agents, tasks, score), p);
  }

  /** With distinct ids the matching has min(|agents|, |tasks|) pairs. */
  lemma AssignTasksSize(agents: seq<Agent>, tasks: seq<Task>, score: Scorer)
    requires DistinctAgentIds(agents) && DistinctTaskIds(tasks)
    ensures |AssignTasks(agents, tasks, score)| == Min(|agents|, |tasks|)
  {
    var r := AssignTasks(agents, tasks, score);
    DistinctCard(AgentIdSeq(agents));
    DistinctCard(TaskIdSeq(tasks));
    SubsetCard(r.Keys, AgentIds(agents));
    SubsetCard(r.Values, TaskIds(tasks));
    if |r| < |agents| && |r| < |tasks| {
      SmallerSubsetMisses(r.Keys, AgentIds(agents));
      SmallerSubsetMisses(r.Values, TaskIds(tasks));
      var a :| a in AgentIds(agents) && a !in r.Keys;
      var t :| t in TaskIds(tasks) && t !in r.Values;
      var i :| 0 <= i < |agents| && AgentIdSeq(agents)[i] == a;
      var j :| 0 <= j < |tasks| && TaskIdSeq(tasks)[j] == t;
      AssignTasksIsMaximal(agents, tasks, score, i, j);
      assert false;
    }
  }
}

=== FILE: permutations.dfy ===
/** `itertools.permutations(pool, k)`: every arrangement of `k` distinct pool
    elements, enumerated first by the position of the first element in the pool,
    then recursively over the remaining elements in their pool order. */
module Permutations {
  import opened Common

  /** `range(m)` as a sequence. */
  function Range(m: nat): (r: seq<int>)
    ensures |r| == m && forall i :: 0 <= i < m ==> r[i] == i
  {
    seq(m, i => i)
  }

  /** Strictly increasing: the pool `range(m)` is. */
  ghost predicate Increasing(s: seq<int>)
  {
    forall i, j :: 0 <= i < j < |s| ==> s[i] < s[j]
  }

  /** `p` arranges `k` distinct elements of `pool`. */
  ghost predicate IsArrangement(p: seq<int>, pool: seq<int>, k: nat)
  {
    |p| == k && Distinct(p) && forall i :: 0 <= i < |p| ==> p[i] in pool
  }

  /** `pool` without its element at position `j`. */
  function RemoveAt(pool: seq<int>, j: nat): (r: seq<int>)
    requires j < |pool|
    ensures |r| == |pool| - 1
    ensures forall x :: x in r ==> x in pool
    ensures forall x :: x in pool && x != pool[j] ==> x in r
    ensures Distinct(pool) ==> Distinct(r) && pool[j] !in r
    ensures Increasing(pool) ==> Increasing(r)
  {
    var r := pool[..j] + pool[j + 1..];
    assert forall i :: 0 <= i < |r| ==> r[i] == (if i < j then pool[i] else pool[i + 1]);
    r
  }

  /** Puts `x` in front of each arrangement. */
  function Prepend(x: int, ps: seq<seq<int>>): (r: seq<seq<int>>)
    ensures |r| == |ps| && forall i :: 0 <= i < |ps| ==> r[i] == [x] + ps[i]
  {
    seq(|ps|, i requires 0 <= i < |ps| => [x] + ps[i])
  }

  /** The arrangements of `k` elements of `pool`, in itertools order; none when
      `k` exceeds the pool. */
  function Perms(pool: seq<int>, k: nat): (r: seq<seq<int>>)
    ensures |r| > 0 <==> k <= |pool|
    decreases k, |pool| + 1
  {
    if k == 0 then [[]] else PermsFrom(pool, k, 0)
  }

  /** The arrangements whose first element sits at position `j` or later of the pool. */
  function PermsFrom(pool: seq<int>, k: nat, j: nat): (r: seq<seq<int>>)
    requires 1 <= k && j <= |pool|
    ensures k <= |pool| - j ==> |r| > 0
    ensures k > |pool| ==> r == []
    ensures forall i :: 0 <= i < |r| ==> |r[i]| > 0 && r[i][0] in pool[j..]
    decreases k, |pool| - j
  {
    if j == |pool| then []
    else
      var tails := Perms(RemoveAt(pool, j), k - 1);
      var later := PermsFrom(pool, k, j + 1);
      BlockStartsAt(pool, j, tails);
      LaterStartsFrom(pool, j, later);
      Prepend(pool[j], tails) + later
  }

  /** Over a pool without repeats, `Perms` lists only arrangements. */
  lemma {:induction false} PermsAreArrangements(pool: seq<int>, k: nat)
    requires Distinct(pool)
    ensures forall i :: 0 <= i < |Perms(pool, k)| ==> IsArrangement(Perms(pool, k)[i], pool, k)
    decreases k, |pool| + 1
  {
    if k > 0 {
      PermsFromAreArrangements(pool, k, 0);
    }
  }

  lemma {:induction false} PermsFromAreArrangements(pool: seq<int>, k: nat, j: nat)
    requires Distinct(pool) && 1 <= k && j <= |pool|
    ensures forall i :: 0 <= i < |PermsFrom(pool, k, j)| ==> IsArrangement(PermsFrom(pool, k, j)[i], pool, k)
    decreases k, |pool| - j
  {
    if k <= |pool| && j < |pool| {
      var tails := Perms(RemoveAt(pool, j), k - 1);
      var later := PermsFrom(pool, k, j + 1);
      PermsAreArrangements(RemoveAt(pool, j), k - 1);
      PermsFromAreArrangements(pool, k, j + 1);
      BlockArrangements(pool, k, j, tails);
      PermsFromUnfold(pool, k, j);
      ConcatArrangements(pool, k, Prepend(pool[j], tails), later);
    }
  }

  lemma ConcatArrangements(pool: seq<int>, k: nat, xs: seq<seq<int>>, ys: seq<seq<int>>)
    requires forall i :: 0 <= i < |xs| ==> IsArrangement(xs[i], pool, k)
    requires forall i :: 0 <= i < |ys| ==> IsArrangement(ys[i], pool, k)
    ensures forall i :: 0 <= i < |xs + ys| ==> IsArrangement((xs + ys)[i], pool, k)
  {
    forall i | 0 <= i < |xs + ys|
      ensures IsArrangement((xs + ys)[i], pool, k)
    {
      if i < |xs| {
        assert (xs + ys)[i] == xs[i];
      } else {
        assert (xs + ys)[i] == ys[i - |xs|];
      }
    }
  }

  /** Every arrangement of the block starting at `j` starts with `pool[j]`. */
  lemma BlockStartsAt(pool: seq<int>, j: nat, tails: seq<seq<int>>)
    requires j < |pool|
    ensures forall i :: 0 <= i < |tails| ==>
      |Prepend(pool[j], tails)[i]| > 0 && Prepend(pool[j], tails)[i][0] in pool[j..]
  {
    assert pool[j..][0] == pool[j];
  }

  /** Putting `pool[j]` in front of arrangements of the rest of the pool gives
      arrangements of the pool that start at position `j`. */
  lemma BlockArrangements(pool: seq<int>, k: nat, j: nat, tails: seq<seq<int>>)
    requires 1 <= k && j < |pool| && Distinct(pool)
    requires forall i :: 0 <= i < |tails| ==> IsArrangement(tails[i], RemoveAt(pool, j), k - 1)
    ensures forall i :: 0 <= i < |tails| ==> IsArrangement(Prepend(pool[j], tails)[i], pool, k)
  {
    var block := Prepend(pool[j], tails);
    forall i | 0 <= i < |tails|
      ensures IsArrangement(block[i], pool, k)
    {
      var tail := tails[i];
      assert block[i] == [pool[j]] + tail;
      assert forall t :: 0 <= t < |tail| ==> tail[t] in RemoveAt(pool, j) && tail[t] != pool[j];
    }
  }

  /** Arrangements starting after position `j` start at position `j` or later. */
  lemma LaterStartsFrom(pool: seq<int>, j: nat, later: seq<seq<int>>)
    requires j < |pool|
    requires forall i :: 0 <= i < |later| ==> |later[i]| > 0 && later[i][0] in pool[j + 1..]
    ensures forall i :: 0 <= i < |later| ==> later[i][0] in pool[j..]
  {
    forall i | 0 <= i < |later|
      ensures later[i][0] in pool[j..]
    {
      var x := later[i][0];
      var q :| 0 <= q < |pool[j + 1..]| && pool[j + 1..][q] == x;
      assert pool[j..][q + 1] == x;
    }
  }

  /** Python's `<` on two tuples that differ somewhere within both. */
  predicate LexLess(p: seq<int>, q: seq<int>)
  {
    |p| > 0 && |q| > 0 && (p[0] < q[0] || (p[0] == q[0] && LexLess(p[1..], q[1..])))
  }

  /** Each arrangement comes strictly before every later one. */
  ghost predicate Sorted(ps: seq<seq<int>>)
  {
    forall i, j :: 0 <= i < j < |ps| ==> LexLess(ps[i], ps[j])
  }

  lemma {:induction false} LexLessAsymmetric(p: seq<int>, q: seq<int>)
    requires LexLess(p, q)
    ensures !LexLess(q, p) && p != q
  {
    if p[0] == q[0] {
      LexLessAsymmetric(p[1..], q[1..]);
    }
  }

  /** The same prefix on both sides keeps the order. */
  lemma PrependKeepsOrder(x: int, p: seq<int>, q: seq<int>)
    requires LexLess(p, q)
    ensures LexLess([x] + p, [x] + q)
  {
    assert ([x] + p)[1..] == p && ([x] + q)[1..] == q;
  }

  /** An element taken from a pool after position `j` exceeds `pool[j]`. */
  lemma LaterInIncreasing(pool: seq<int>, j: nat, x: int)
    requires Increasing(pool) && j < |pool| && x in pool[j + 1..]
    ensures pool[j] < x
  {
    var q :| 0 <= q < |pool[j + 1..]| && pool[j + 1..][q] == x;
    assert pool[j + q + 1] == x;
  }

  /** Over an increasing pool, `Perms` lists the arrangements in increasing
      lexicographic order, as the library documents. */
  lemma {:induction false} PermsSorted(pool: seq<int>, k: nat)
    requires Increasing(pool)
    ensures Sorted(Perms(pool, k))
    decreases k, |pool| + 1
  {
    if k > 0 {
      PermsFromSorted(pool, k, 0);
    }
  }

  lemma {:induction false} PermsFromSorted(pool: seq<int>, k: nat, j: nat)
    requires Increasing(pool) && 1 <= k && j <= |pool|
    ensures Sorted(PermsFrom(pool, k, j))
    decreases k, |pool| - j
  {
    if k <= |pool| && j < |pool| {
      var tails := Perms(RemoveAt(pool, j), k - 1);
      var later := PermsFrom(pool, k, j + 1);
      PermsSorted(RemoveAt(pool, j), k - 1);
      PermsFromSorted(pool, k, j + 1);
      PermsFromUnfold(pool, k, j);
      SortedBlocks(pool, j, tails, later);
    }
  }

  lemma PermsFromUnfold(pool: seq<int>, k: nat, j: nat)
    requires 1 <= k && j < |pool|
    ensures PermsFrom(pool, k, j) == Prepend(pool[j], Perms(RemoveAt(pool, j), k - 1)) + PermsFrom(pool, k, j + 1)
  {
  }

  /** The arrangements starting with `pool[j]`, followed by those starting
      later in the pool, stay sorted. */
  lemma SortedBlocks(pool: seq<int>, j: nat, tails: seq<seq<int>>, later: seq<seq<int>>)
    requires Increasing(pool) && j < |pool|
    requires Sorted(tails) && Sorted(later)
    requires forall b :: 0 <= b < |later| ==> |later[b]| > 0 && later[b][0] in pool[j + 1..]
    ensures Sorted(Prepend(pool[j], tails) + later)
  {
    var block := Prepend(pool[j], tails);
    PrependSorted(pool[j], tails);
    BlockBeforeLater(pool, j, block, later);
    ConcatSorted(block, later);
  }

  lemma PrependSorted(x: int, ps: seq<seq<int>>)
    requires Sorted(ps)
    ensures Sorted(Prepend(x, ps))
  {
    var r := Prepend(x, ps);
    forall a, b | 0 <= a < b < |r|
      ensures LexLess(r[a], r[b])
    {
      PrependKeepsOrder(x, ps[a], ps[b]);
    }
  }

  /** Arrangements starting with `pool[j]` precede those starting later in the pool. */
  lemma BlockBeforeLater(pool: seq<int>, j: nat, block: seq<seq<int>>, later: seq<seq<int>>)
    requires Increasing(pool) && j < |pool|
    requires forall a :: 0 <= a < |block| ==> |block[a]| > 0 && block[a][0] == pool[j]
    requires forall b :: 0 <= b < |later| ==> |later[b]| > 0 && later[b][0] in pool[j + 1..]
    ensures forall a, b :: 0 <= a < |block| && 0 <= b < |later| ==> LexLess(block[a], later[b])
  {
    forall a, b | 0 <= a < |block| && 0 <= b < |later|
      ensures LexLess(block[a], later[b])
    {
      LaterInIncreasing(pool, j, later[b][0]);
    }
  }

  lemma ConcatSorted(xs: seq<seq<int>>, ys: seq<seq<int>>)
    requires Sorted(xs) && Sorted(ys)
    requires forall a, b :: 0 <= a < |xs| && 0 <= b < |ys| ==> LexLess(xs[a], ys[b])
    ensures Sorted(xs + ys)
  {
    var r := xs + ys;
    forall a, b | 0 <= a < b < |r|
      ensures LexLess(r[a], r[b])
    {
      if b < |xs| {
        assert r[a] == xs[a] && r[b] == xs[b];
      } else if a < |xs| {
        assert r[a] == xs[a] && r[b] == ys[b - |xs|];
      } else {
        assert r[a] == ys[a - |xs|] && r[b] == ys[b - |xs|];
      }
    }
  }

  /** Every block from position `j` on is part of `PermsFrom(pool, k, from)`. */
  lemma {:induction false} PermsFromContains(pool: seq<int>, k: nat, from: nat, j: nat, tail: seq<int>)
    requires 1 <= k && from <= j < |pool|
    requires tail in Perms(RemoveAt(pool, j), k - 1)
    ensures [pool[j]] + tail in PermsFrom(pool, k, from)
    decreases j - from
  {
    var block := Prepend(pool[from], Perms(RemoveAt(pool, from), k - 1));
    assert PermsFrom(pool, k, from) == block + PermsFrom(pool, k, from + 1);
    if j == from {
      var i :| 0 <= i < |Perms(RemoveAt(pool, j), k - 1)| && Perms(RemoveAt(pool, j), k - 1)[i] == tail;
      assert block[i] == [pool[j]] + tail;
    } else {
      PermsFromContains(pool, k, from + 1, j, tail);
    }
  }

  /** `Perms` misses no arrangement of a pool without repeats. */
  lemma {:induction false} PermsComplete(pool: seq<int>, k: nat, p: seq<int>)
    requires Distinct(pool) && IsArrangement(p, pool, k)
    ensures p in Perms(pool, k)
  {
    if k == 0 {
      assert p == [];
    } else {
      var j := IndexOf(pool, p[0]);
      TailArrangement(pool, k, p, j);
      PermsComplete(RemoveAt(pool, j), k - 1, p[1..]);
      PermsFromContains(pool, k, 0, j, p[1..]);
      HeadAndTail(p);
    }
  }

  /** A position of `x` in `s`. */
  function IndexOf(s: seq<int>, x: int): (j: nat)
    requires x in s
    ensures j < |s| && s[j] == x
  {
    if s[0] == x then 0 else 1 + IndexOf(s[1..], x)
  }

  lemma HeadAndTail(p: seq<int>)
    requires |p| > 0
    ensures [p[0]] + p[1..] == p
  {
  }

  /** Without its head, an arrangement arranges the pool without that head. */
  lemma TailArrangement(pool: seq<int>, k: nat, p: seq<int>, j: nat)
    requires Distinct(pool) && IsArrangement(p, pool, k) && k > 0
    requires j < |pool| && pool[j] == p[0]
    ensures IsArrangement(p[1..], RemoveAt(pool, j), k - 1)
  {
    var rest := RemoveAt(pool, j);
    var tail := p[1..];
    forall t | 0 <= t < |tail|
      ensures tail[t] in rest
    {
      assert tail[t] == p[t + 1] && p[t + 1] != p[0];
    }
  }

  /** In a sorted list, the smaller of two listed arrangements comes first. */
  lemma SortedPosition(ps: seq<seq<int>>, i: int, j: int)
    requires Sorted(ps) && 0 <= i < |ps| && 0 <= j < |ps|
    requires LexLess(ps[i], ps[j])
    ensures i < j
  {
    if i >= j {
      LexLessAsymmetric(ps[i], ps[j]);
    }
  }
}

=== FILE: pso.dfy ===
/** The swarm matcher of pso_engine.py: the particle encoding (one real task
    index per agent), its fitness, the decoding of the swarm's best particle,
    and the exhaustive fallback over task permutations for small instances.
    The swarm search itself is a parameter: `Assign` receives the particle it
    returned. */
module Pso {
  import opened Common
  import opened Entities
  import opened Permutations

  /** Travel time divides by the agent's speed, but never by less than this. */
  const SpeedFloor: real := 0.1

  /** Up to this many agents, and no more tasks than agents, search exhaustively. */
  const BruteForceMaxAgents: nat := 7

  /** `max(agent.speed, 0.1)`. */
  function TravelDivisor(a: Agent): (d: real)
    ensures d >= SpeedFloor && d >= a.speed
    ensures d == SpeedFloor || d == a.speed
  {
    if a.speed >= SpeedFloor then a.speed else SpeedFloor
  }

  /** Desirability of sending `a` to `t`: health and urgency count for it,
      travel time (distance over the divisor) against it, so only an agent
      standing on its task scores the full health and urgency terms. */
  function SwarmScore(a: Agent, t: Task): (s: real)
    ensures s <= a.health * 0.3 + t.urgency * 0.4
    ensures s == a.health * 0.3 + t.urgency * 0.4 <==> a.x == t.x && a.y == t.y
  {
    TravelTime(Manhattan(a, t) as real, TravelDivisor(a));
    a.health * 0.3 + t.urgency * 0.4 - ((Manhattan(a, t) as real) / TravelDivisor(a)) * 0.3
  }

  /** A distance over a positive divisor is non-negative, and zero only for zero distance. */
  lemma TravelTime(d: real, q: real)
    requires d >= 0.0 && q > 0.0
    ensures d / q >= 0.0
    ensures d / q == 0.0 <==> d == 0.0
  {
    if d != 0.0 {
      assert d / q > 0.0;
    }
  }

  /** More urgency never lowers the score of a fixed agent. */
  lemma SwarmScoreMonotoneInUrgency(a: Agent, t: Task, u: real)
    requires t.urgency <= u
    ensures SwarmScore(a, t) <= SwarmScore(a, t.(urgency := u))
  {
    assert Manhattan(a, t) == Manhattan(a, t.(urgency := u));
  }

  /** numpy's `astype(int)`: truncation toward zero. */
  function Trunc(x: real): (n: int)
    ensures x >= 0.0 ==> n >= 0 && n as real <= x < n as real + 1.0
    ensures x < 0.0 ==> n <= 0 && n as real - 1.0 < x <= n as real
  {
    if x >= 0.0 then x.Floor else -((-x).Floor)
  }

  /** The agent attributes one score computation reads, in the order it reads
      them (lines 38-39 and 42; lines 76-79 read the same). */
  const SwarmAgentReads: seq<string> := ["x", "y", "speed", "health"]

  /** The position of the first attribute in `order` missing from `attrs`:
      Python raises `AttributeError` on it. */
  function FirstMissing(order: seq<string>, attrs: set<string>): (r: Option<nat>)
    ensures r.None? <==> forall i :: 0 <= i < |order| ==> order[i] in attrs
    ensures r.Some? ==> r.value < |order| && order[r.value] !in attrs
    ensures r.Some? ==> forall j :: 0 <= j < r.value ==> order[j] in attrs
  {
    if |order| == 0 then None
    else if order[0] !in attrs then Some(0)
    else
      var rest := FirstMissing(order[1..], attrs);
      if rest.None? then None else Some(rest.value + 1)
  }

  /** As written, agent.py sets no `speed`, so the swarm's first score reads
      a missing attribute. */
  lemma AsWrittenSwarmReadsMissingSpeed()
    ensures FirstMissing(SwarmAgentReads, AsWrittenAgentAttributes) == Some(2)
    ensures SwarmAgentReads[2] == "speed"
  {
    var r := FirstMissing(SwarmAgentReads, AsWrittenAgentAttributes);
    assert SwarmAgentReads[0] in AsWrittenAgentAttributes;
    assert SwarmAgentReads[1] in AsWrittenAgentAttributes;
    assert SwarmAgentReads[2] !in AsWrittenAgentAttributes;
  }

  /** The modelled agent carries every attribute the swarm reads. */
  lemma SwarmReadsAreSet()
    ensures FirstMissing(SwarmAgentReads, AgentAttributes) == None
  {
    forall i | 0 <= i < |SwarmAgentReads|
      ensures SwarmAgentReads[i] in AgentAttributes
    {
    }
  }

  /** The swarm's box `[0, num_tasks]` in every coordinate. */
  ghost predicate InBounds(particle: seq<real>, numTasks: nat)
  {
    forall i :: 0 <= i < |particle| ==> 0.0 <= particle[i] <= numTasks as real
  }

  /** The particle read as task indices; inside the box these lie in `0..num_tasks`,
      the top value naming no task. */
  function TaskIndices(particle: seq<real>): (idx: seq<int>)
    ensures |idx| == |particle|
    ensures forall i :: 0 <= i < |particle| ==> idx[i] == Trunc(particle[i])
  {
    seq(|particle|, i requires 0 <= i < |particle| => Trunc(particle[i]))
  }

  lemma TaskIndicesInBox(particle: seq<real>, numTasks: nat)
    requires InBounds(particle, numTasks)
    ensures forall i :: 0 <= i < |particle| ==> 0 <= TaskIndices(particle)[i] <= numTasks
  {
    forall i | 0 <= i < |particle|
      ensures TaskIndices(particle)[i] <= numTasks
    {
      var n := Trunc(particle[i]);
      assert n as real <= numTasks as real;
    }
  }

  ghost predicate NonNegative(idx: seq<int>)
  {
    forall i :: 0 <= i < |idx| ==> 0 <= idx[i]
  }

  /** The fitness loop from agent `i` on, `claimed` holding the task indices
      already taken: an index past the tasks or already claimed is skipped. */
  function DesirabilityFrom(agents: seq<Agent>, tasks: seq<Task>, idx: seq<int>, i: nat, claimed: set<int>): real
    requires |idx| == |agents| && i <= |agents| && NonNegative(idx)
    decreases |agents| - i
  {
    if i == |agents| then 0.0
    else
      var k := idx[i];
      if k >= |tasks| || k in claimed then DesirabilityFrom(agents, tasks, idx, i + 1, claimed)
      else SwarmScore(agents[i], tasks[k]) + DesirabilityFrom(agents, tasks, idx, i + 1, claimed + {k})
  }

  /** The objective handed to the swarm, which minimises it. */
  function Fitness(agents: seq<Agent>, tasks: seq<Task>, particle: seq<real>): (f: real)
    requires |particle| == |agents| && InBounds(particle, |tasks|)
    ensures NonNegative(TaskIndices(particle))
    ensures f == -WinnerTotal(agents, tasks, TaskIndices(particle), |agents|)
  {
    var idx := TaskIndices(particle);
    TaskIndicesInBox(particle, |tasks|);
    DesirabilityFromWinners(agents, tasks, idx, 0);
    assert Claimed(idx, |tasks|, 0) == {};
    -DesirabilityFrom(agents, tasks, idx, 0, {})
  }

  /** Reference reading of the encoding: agent `i` gets task `idx[i]` exactly
      when that index names a task and no earlier agent names it. */
  ghost predicate Wins(idx: seq<int>, numTasks: nat, i: int)
    requires 0 <= i < |idx|
  {
    0 <= idx[i] < numTasks && forall j :: 0 <= j < i ==> idx[j] != idx[i]
  }

  /** The task indices named by the first `i` agents. */
  ghost function Claimed(idx: seq<int>, numTasks: nat, i: nat): set<int>
    requires i <= |idx|
  {
    set j | 0 <= j < i && 0 <= idx[j] < numTasks :: idx[j]
  }

  lemma ClaimedStep(idx: seq<int>, numTasks: nat, i: nat)
    requires i < |idx|
    ensures Claimed(idx, numTasks, i + 1) ==
      Claimed(idx, numTasks, i) + (if 0 <= idx[i] < numTasks then {idx[i]} else {})
    ensures 0 <= idx[i] < numTasks ==> (idx[i] !in Claimed(idx, numTasks, i) <==> Wins(idx, numTasks, i))
  {
    if 0 <= idx[i] < numTasks && idx[i] in Claimed(idx, numTasks, i) {
      var j :| 0 <= j < i && 0 <= idx[j] < numTasks && idx[j] == idx[i];
    }
  }

  /** The total over the winners among the first `n` agents. */
  ghost function WinnerTotal(agents: seq<Agent>, tasks: seq<Task>, idx: seq<int>, n: nat): real
    requires |idx| == |agents| && n <= |agents|
  {
    if n == 0 then 0.0
    else
      WinnerTotal(agents, tasks, idx, n - 1)
      + (if Wins(idx, |tasks|, n - 1) then SwarmScore(agents[n - 1], tasks[idx[n - 1]]) else 0.0)
  }

  lemma {:induction false} DesirabilityFromWinners(agents: seq<Agent>, tasks: seq<Task>, idx: seq<int>, i: nat)
    requires |idx| == |agents| && i <= |agents| && NonNegative(idx)
    ensures WinnerTotal(agents, tasks, idx, i) + DesirabilityFrom(agents, tasks, idx, i, Claimed(idx, |tasks|, i))
         == WinnerTotal(agents, tasks, idx, |agents|)
    decreases |agents| - i
  {
    if i < |agents| {
      var c := Claimed(idx, |tasks|, i);
      var k := idx[i];
      ClaimedStep(idx, |tasks|, i);
      DesirabilityFromWinners(agents, tasks, idx, i + 1);
      if k >= |tasks| || k in c {
        assert Claimed(idx, |tasks|, i + 1) == c;
        assert !Wins(idx, |tasks|, i);
        assert DesirabilityFrom(agents, tasks, idx, i, c) == DesirabilityFrom(agents, tasks, idx, i + 1, c);
      } else {
        assert Claimed(idx, |tasks|, i + 1) == c + {k};
        assert Wins(idx, |tasks|, i);
        assert DesirabilityFrom(agents, tasks, idx, i, c)
            == SwarmScore(agents[i], tasks[k]) + DesirabilityFrom(agents, tasks, idx, i + 1, c + {k});
      }
    }
  }

  /** What decoding gives agent `i`: its task's id when it wins, else `None`. */
  ghost function Outcome(agents: seq<Agent>, tasks: seq<Task>, idx: seq<int>, i: int): Option<int>
    requires |idx| == |agents| && 0 <= i < |agents|
  {
    if Wins(idx, |tasks|, i) then Some(tasks[idx[i]].id) else None
  }

  /** The decoding loop over the swarm's best particle from agent `i` on. */
  function DecodeFrom(agents: seq<Agent>, tasks: seq<Task>, idx: seq<int>, i: nat,
                      result: map<int, Option<int>>, used: set<int>): map<int, Option<int>>
    requires |idx| == |agents| && i <= |agents| && NonNegative(idx)
    decreases |agents| - i
  {
    if i == |agents| then result
    else
      var k := idx[i];
      if k < |tasks| && k !in used then
        DecodeFrom(agents, tasks, idx, i + 1, result[agents[i].id := Some(tasks[k].id)], used + {k})
      else
        DecodeFrom(agents, tasks, idx, i + 1, result[agents[i].id := None], used)
  }

  /** Agent `i`'s id occurs at no later position. */
  ghost predicate LastWithId(agents: seq<Agent>, i: int)
    requires 0 <= i < |agents|
  {
    forall l :: i < l < |agents| ==> agents[l].id != agents[i].id
  }

  /** The map after agent `i`'s turn of the decoding loop. */
  ghost function AfterTurn(agents: seq<Agent>, tasks: seq<Task>, idx: seq<int>, i: nat,
                           result: map<int, Option<int>>): map<int, Option<int>>
    requires |idx| == |agents| && i < |agents|
  {
    result[agents[i].id := Outcome(agents, tasks, idx, i)]
  }

  /** One turn of the loop, with `used` the indices claimed so far. */
  lemma DecodeTurn(agents: seq<Agent>, tasks: seq<Task>, idx: seq<int>, i: nat, result: map<int, Option<int>>)
    requires |idx| == |agents| && i < |agents| && NonNegative(idx)
    ensures DecodeFrom(agents, tasks, idx, i, result, Claimed(idx, |tasks|, i))
         == DecodeFrom(agents, tasks, idx, i + 1, AfterTurn(agents, tasks, idx, i, result), Claimed(idx, |tasks|, i + 1))
  {
    ClaimedStep(idx, |tasks|, i);
    var k := idx[i];
    var c := Claimed(idx, |tasks|, i);
    if k < |tasks| && k !in c {
      assert Wins(idx, |tasks|, i);
      assert Claimed(idx, |tasks|, i + 1) == c + {k};
      assert AfterTurn(agents, tasks, idx, i, result) == result[agents[i].id := Some(tasks[k].id)];
    } else {
      assert !Wins(idx, |tasks|, i);
      assert Claimed(idx, |tasks|, i + 1) == c;
      assert AfterTurn(agents, tasks, idx, i, result) == result[agents[i].id := None];
    }
  }

  lemma AgentIdsFrom(agents: seq<Agent>, i: nat)
    requires i < |agents|
    ensures AgentIds(agents[i..]) == {agents[i].id} + AgentIds(agents[i + 1..])
  {
    assert AgentIdSeq(agents[i..]) == [agents[i].id] + AgentIdSeq(agents[i + 1..]);
  }

  lemma LastIdNotLater(agents: seq<Agent>, i: nat)
    requires i < |agents| && LastWithId(agents, i)
    ensures agents[i].id !in AgentIds(agents[i + 1..])
  {
    var later := AgentIdSeq(agents[i + 1..]);
    forall l | 0 <= l < |later|
      ensures later[l] != agents[i].id
    {
      assert agents[i + 1..][l] == agents[i + 1 + l];
    }
  }

  lemma DistinctIdsAreLast(agents: seq<Agent>)
    ensures DistinctAgentIds(agents) ==> forall i :: 0 <= i < |agents| ==> LastWithId(agents, i)
  {
    if DistinctAgentIds(agents) {
      forall i, l | 0 <= i < l < |agents|
        ensures agents[l].id != agents[i].id
      {
        assert AgentIdSeq(agents)[i] != AgentIdSeq(agents)[l];
      }
    }
  }

  lemma {:induction false} DecodeFromKeys(agents: seq<Agent>, tasks: seq<Task>, idx: seq<int>, i: nat,
                                         result: map<int, Option<int>>)
    requires |idx| == |agents| && i <= |agents| && NonNegative(idx)
    ensures var r := DecodeFrom(agents, tasks, idx, i, result, Claimed(idx, |tasks|, i));
      && r.Keys == result.Keys + AgentIds(agents[i..])
      && (SomeValues(result) <= TaskIds(tasks) ==> SomeValues(r) <= TaskIds(tasks))
    decreases |agents| - i
  {
    if i < |agents| {
      var next := AfterTurn(agents, tasks, idx, i, result);
      DecodeTurn(agents, tasks, idx, i, result);
      DecodeFromKeys(agents, tasks, idx, i + 1, next);
      AgentIdsFrom(agents, i);
      if SomeValues(result) <= TaskIds(tasks) && Wins(idx, |tasks|, i) {
        assert TaskIdSeq(tasks)[idx[i]] == tasks[idx[i]].id;
        assert SomeValues(next) <= SomeValues(result) + {tasks[idx[i]].id};
      }
    }
  }

  lemma {:induction false} DecodeFromEntries(agents: seq<Agent>, tasks: seq<Task>, idx: seq<int>, i: nat,
                                            result: map<int, Option<int>>)
    requires |idx| == |agents| && i <= |agents| && NonNegative(idx)
    ensures var r := DecodeFrom(agents, tasks, idx, i, result, Claimed(idx, |tasks|, i));
      && (forall key :: key in result && key !in AgentIds(agents[i..]) ==> key in r && r[key] == result[key])
      && (forall j :: i <= j < |agents| && LastWithId(agents, j) ==>
            agents[j].id in r && r[agents[j].id] == Outcome(agents, tasks, idx, j))
    decreases |agents| - i
  {
    if i < |agents| {
      var next := AfterTurn(agents, tasks, idx, i, result);
      DecodeTurn(agents, tasks, idx, i, result);
      DecodeFromEntries(agents, tasks, idx, i + 1, next);
      AgentIdsFrom(agents, i);
      if LastWithId(agents, i) {
        LastIdNotLater(agents, i);
      }
    }
  }

  /** Decoding the swarm's best particle: every agent gets an entry, the
      winners their task's id and everyone else `None`. */
  function Decode(agents: seq<Agent>, tasks: seq<Task>, particle: seq<real>): (r: map<int, Option<int>>)
    requires |particle| == |agents| && InBounds(particle, |tasks|)
    ensures r.Keys == AgentIds(agents)
    ensures SomeValues(r) <= TaskIds(tasks)
    ensures DistinctAgentIds(agents) ==>
      forall i :: 0 <= i < |agents| ==> r[agents[i].id] == Outcome(agents, tasks, TaskIndices(particle), i)
  {
    TaskIndicesInBox(particle, |tasks|);
    var idx := TaskIndices(particle);
    DecodeFromKeys(agents, tasks, idx, 0, map[]);
    DecodeFromEntries(agents, tasks, idx, 0, map[]);
    DistinctIdsAreLast(agents);
    assert Claimed(idx, |tasks|, 0) == {};
    assert agents[0..] == agents;
    assert SomeValues(map[]) == {};
    DecodeFrom(agents, tasks, idx, 0, map[], {})
  }

  /** The agent whose id `a` is, when `a` is an agent id. */
  lemma AgentIndex(agents: seq<Agent>, a: int) returns (i: int)
    requires a in AgentIds(agents)
    ensures 0 <= i < |agents| && agents[i].id == a
  {
    var ids := AgentIdSeq(agents);
    i :| 0 <= i < |ids| && ids[i] == a;
  }

  /** With distinct ids on both sides, no task goes to two agents. */
  lemma DecodeInjective(agents: seq<Agent>, tasks: seq<Task>, particle: seq<real>)
    requires |particle| == |agents| && InBounds(particle, |tasks|)
    requires DistinctAgentIds(agents) && DistinctTaskIds(tasks)
    ensures InjectiveSome(Decode(agents, tasks, particle))
  {
    var r := Decode(agents, tasks, particle);
    var idx := TaskIndices(particle);
    forall a, b | a in r && b in r && a != b && r[a].Some?
      ensures r[a] != r[b]
    {
      var i := AgentIndex(agents, a);
      var j := AgentIndex(agents, b);
      assert Wins(idx, |tasks|, i);
      if Wins(idx, |tasks|, j) {
        assert idx[i] != idx[j] by {
          if i < j {
            assert idx[i] != idx[j];
          } else {
            assert idx[j] != idx[i];
          }
        }
        assert TaskIdSeq(tasks)[idx[i]] != TaskIdSeq(tasks)[idx[j]];
      }
    }
  }

  /** A task index for each of the first `|perm|` agents. */
  ghost predicate ValidPerm(agents: seq<Agent>, tasks: seq<Task>, perm: seq<int>)
  {
    |perm| <= |agents| && forall i :: 0 <= i < |perm| ==> 0 <= perm[i] < |tasks|
  }

  /** The score sum of a permutation, agent `i` taking task `perm[i]`. */
  function PermTotal(agents: seq<Agent>, tasks: seq<Task>, perm: seq<int>): real
    requires ValidPerm(agents, tasks, perm)
    decreases |perm|
  {
    if |perm| == 0 then 0.0
    else
      var n := |perm| - 1;
      PermTotal(agents, tasks, perm[..n]) + SwarmScore(agents[n], tasks[perm[n]])
  }

  /** `permutations(range(num_tasks), min(num_agents, num_tasks))`. */
  function Arrangements(agents: seq<Agent>, tasks: seq<Task>): (ps: seq<seq<int>>)
    ensures |ps| > 0
    ensures forall i :: 0 <= i < |ps| ==> ValidPerm(agents, tasks, ps[i]) && |ps[i]| == Min(|agents|, |tasks|)
    ensures forall i :: 0 <= i < |ps| ==> Distinct(ps[i])
  {
    var k := Min(|agents|, |tasks|);
    var ps := Perms(Range(|tasks|), k);
    PermsAreArrangements(Range(|tasks|), k);
    forall i | 0 <= i < |ps|
      ensures ValidPerm(agents, tasks, ps[i])
    {
      forall t | 0 <= t < |ps[i]|
        ensures 0 <= ps[i][t] < |tasks|
      {
        assert ps[i][t] in Range(|tasks|);
      }
    }
    ps
  }

  /** The totals of a list of permutations, in order. */
  function Totals(agents: seq<Agent>, tasks: seq<Task>, ps: seq<seq<int>>): (ts: seq<real>)
    requires forall i :: 0 <= i < |ps| ==> ValidPerm(agents, tasks, ps[i])
    ensures |ts| == |ps| && forall i :: 0 <= i < |ps| ==> ts[i] == PermTotal(agents, tasks, ps[i])
  {
    seq(|ps|, i requires 0 <= i < |ps| => PermTotal(agents, tasks, ps[i]))
  }

  /** The `if score > best_score` scan from position `i`: `best` is the best
      total so far, `None` standing for minus infinity, held at `bestAt`. The
      scan keeps `bestAt` or moves to a later total that strictly beats `best`. */
  function ScanFrom(ts: seq<real>, i: nat, best: Option<real>, bestAt: nat): (r: nat)
    requires i <= |ts|
    ensures r == bestAt || i <= r < |ts|
    ensures r != bestAt && best.Some? ==> ts[r] > best.value
    decreases |ts| - i
  {
    if i == |ts| then bestAt
    else if best.None? || ts[i] > best.value then ScanFrom(ts, i + 1, Some(ts[i]), i)
    else ScanFrom(ts, i + 1, best, bestAt)
  }

  /** `bestAt` holds the first maximum among the first `i` totals. */
  ghost predicate FirstMaxBefore(ts: seq<real>, i: nat, bestAt: nat)
    requires i <= |ts|
  {
    bestAt < i
    && (forall j :: 0 <= j < i ==> ts[j] <= ts[bestAt])
    && (forall j :: 0 <= j < bestAt ==> ts[j] < ts[bestAt])
  }

  lemma {:induction false} ScanFindsFirstMax(ts: seq<real>, i: nat, best: Option<real>, bestAt: nat)
    requires i <= |ts| && 0 < |ts|
    requires (i == 0 && best.None?) || (bestAt < i && best == Some(ts[bestAt]) && FirstMaxBefore(ts, i, bestAt))
    ensures FirstMaxBefore(ts, |ts|, ScanFrom(ts, i, best, bestAt))
    decreases |ts| - i
  {
    if i < |ts| {
      if best.None? || ts[i] > best.value {
        ScanFindsFirstMax(ts, i + 1, Some(ts[i]), i);
      } else {
        ScanFindsFirstMax(ts, i + 1, best, bestAt);
      }
    }
  }

  /** The position the scan keeps: a maximum, and strictly better than every
      total before it, since an equal later total does not replace it. */
  function FirstBest(ts: seq<real>): (b: nat)
    requires |ts| > 0
    ensures b < |ts|
    ensures forall j :: 0 <= j < |ts| ==> ts[j] <= ts[b]
    ensures forall j :: 0 <= j < b ==> ts[j] < ts[b]
  {
    ScanFindsFirstMax(ts, 0, None, 0);
    ScanFrom(ts, 0, None, 0)
  }

  /** The permutation whose assignment the fallback returns. */
  function BestPerm(agents: seq<Agent>, tasks: seq<Task>): (p: seq<int>)
    ensures ValidPerm(agents, tasks, p) && |p| == Min(|agents|, |tasks|) && Distinct(p)
  {
    var ps := Arrangements(agents, tasks);
    ps[FirstBest(Totals(agents, tasks, ps))]
  }

  /** The assignment one permutation builds: agent `i` to task `perm[i]`. */
  function PermAssignment(agents: seq<Agent>, tasks: seq<Task>, perm: seq<int>): (r: map<int, Option<int>>)
    requires ValidPerm(agents, tasks, perm)
    decreases |perm|
  {
    if |perm| == 0 then map[]
    else
      var n := |perm| - 1;
      PermAssignment(agents, tasks, perm[..n])[agents[n].id := Some(tasks[perm[n]].id)]
  }

  lemma PermAssignmentSpec(agents: seq<Agent>, tasks: seq<Task>, perm: seq<int>)
    requires ValidPerm(agents, tasks, perm)
    ensures PermAssignment(agents, tasks, perm).Keys == AgentIds(agents[..|perm|])
    ensures SomeValues(PermAssignment(agents, tasks, perm)) <= TaskIds(tasks)
    ensures DistinctAgentIds(agents) ==> forall i :: 0 <= i < |perm| ==>
      PermAssignment(agents, tasks, perm)[agents[i].id] == Some(tasks[perm[i]].id)
  {
    PermAssignmentKeys(agents, tasks, perm);
    PermAssignmentValues(agents, tasks, perm);
    if DistinctAgentIds(agents) {
      PermAssignmentEntries(agents, tasks, perm);
    }
  }

  lemma {:induction false} PermAssignmentKeys(agents: seq<Agent>, tasks: seq<Task>, perm: seq<int>)
    requires ValidPerm(agents, tasks, perm)
    ensures PermAssignment(agents, tasks, perm).Keys == AgentIds(agents[..|perm|])
    decreases |perm|
  {
    if |perm| > 0 {
      var n := |perm| - 1;
      PermAssignmentKeys(agents, tasks, perm[..n]);
      assert AgentIdSeq(agents[..n + 1]) == AgentIdSeq(agents[..n]) + [agents[n].id];
    }
  }

  lemma {:induction false} PermAssignmentValues(agents: seq<Agent>, tasks: seq<Task>, perm: seq<int>)
    requires ValidPerm(agents, tasks, perm)
    ensures SomeValues(PermAssignment(agents, tasks, perm)) <= TaskIds(tasks)
    decreases |perm|
  {
    if |perm| > 0 {
      var n := |perm| - 1;
      PermAssignmentValues(agents, tasks, perm[..n]);
      assert TaskIdSeq(tasks)[perm[n]] == tasks[perm[n]].id;
    }
  }

  lemma {:induction false} PermAssignmentEntries(agents: seq<Agent>, tasks: seq<Task>, perm: seq<int>)
    requires ValidPerm(agents, tasks, perm) && DistinctAgentIds(agents)
    ensures forall i :: 0 <= i < |perm| ==>
      && agents[i].id in PermAssignment(agents, tasks, perm)
      && PermAssignment(agents, tasks, perm)[agents[i].id] == Some(tasks[perm[i]].id)
    decreases |perm|
  {
    if |perm| > 0 {
      var n := |perm| - 1;
      PermAssignmentEntries(agents, tasks, perm[..n]);
      PermAssignmentKeys(agents, tasks, perm[..n]);
      forall i | 0 <= i < n
        ensures agents[i].id != agents[n].id
      {
        assert AgentIdSeq(agents)[i] != AgentIdSeq(agents)[n];
      }
    }
  }

  /** Lines 84-86: agents the winning permutation left out are added with `None`. */
  function FillNone(agents: seq<Agent>, m: map<int, Option<int>>): (r: map<int, Option<int>>)
    ensures r.Keys == m.Keys + AgentIds(agents)
    ensures forall k :: k in m ==> r[k] == m[k]
    ensures forall k :: k in r && k !in m ==> r[k] == None
    decreases |agents|
  {
    if |agents| == 0 then m
    else
      var n := |agents| - 1;
      var prev := FillNone(agents[..n], m);
      assert AgentIdSeq(agents) == AgentIdSeq(agents[..n]) + [agents[n].id];
      var r := if agents[n].id in prev then prev else prev[agents[n].id := None];
      FillOne(m, prev, agents[n].id, r);
      r
  }

  /** Adding one id with `None` unless present keeps `m`'s entries and fills the rest with `None`. */
  lemma FillOne(m: map<int, Option<int>>, prev: map<int, Option<int>>, id: int, r: map<int, Option<int>>)
    requires forall k :: k in m ==> k in prev && prev[k] == m[k]
    requires forall k :: k in prev && k !in m ==> prev[k] == None
    requires r == if id in prev then prev else prev[id := None]
    ensures r.Keys == prev.Keys + {id}
    ensures forall k :: k in m ==> r[k] == m[k]
    ensures forall k :: k in r && k !in m ==> r[k] == None
  {
  }

  /** `brute_force_assignment`. */
  function BruteForce(agents: seq<Agent>, tasks: seq<Task>): (r: map<int, Option<int>>)
    ensures r.Keys == AgentIds(agents)
    ensures SomeValues(r) <= TaskIds(tasks)
  {
    var p := BestPerm(agents, tasks);
    PermAssignmentSpec(agents, tasks, p);
    assert AgentIds(agents[..|p|]) <= AgentIds(agents);
    var m := PermAssignment(agents, tasks, p);
    var r := FillNone(agents, m);
    assert SomeValues(r) <= SomeValues(m);
    r
  }

  /** An agent id present in a prefix of the snapshot belongs to an agent in it. */
  lemma PrefixAgent(agents: seq<Agent>, k: nat, i: int)
    requires DistinctAgentIds(agents) && k <= i < |agents|
    ensures agents[i].id !in AgentIds(agents[..k])
  {
    var ids := AgentIdSeq(agents[..k]);
    forall j | 0 <= j < k
      ensures ids[j] != agents[i].id
    {
      assert AgentIdSeq(agents)[j] != AgentIdSeq(agents)[i];
    }
  }

  /** The fallback gives agent `i` task `BestPerm[i]` for the first
      `min(n, m)` agents and `None` to every later one. */
  lemma BruteForceEntries(agents: seq<Agent>, tasks: seq<Task>)
    requires DistinctAgentIds(agents)
    ensures var p := BestPerm(agents, tasks);
      && (forall i :: 0 <= i < |p| ==> BruteForce(agents, tasks)[agents[i].id] == Some(tasks[p[i]].id))
      && (forall i :: |p| <= i < |agents| ==> BruteForce(agents, tasks)[agents[i].id] == None)
  {
    var p := BestPerm(agents, tasks);
    var m := PermAssignment(agents, tasks, p);
    PermAssignmentSpec(agents, tasks, p);
    forall i | |p| <= i < |agents|
      ensures agents[i].id !in m
    {
      PrefixAgent(agents, |p|, i);
    }
    forall i | 0 <= i < |p|
      ensures agents[i].id in m
    {
      assert AgentIdSeq(agents[..|p|])[i] == agents[i].id;
    }
    assert AgentIdSeq(agents)[0..] == AgentIdSeq(agents);
  }

  /** With distinct ids on both sides, no task goes to two agents. */
  lemma BruteForceInjective(agents: seq<Agent>, tasks: seq<Task>)
    requires DistinctAgentIds(agents) && DistinctTaskIds(tasks)
    ensures InjectiveSome(BruteForce(agents, tasks))
  {
    var r := BruteForce(agents, tasks);
    var p := BestPerm(agents, tasks);
    BruteForceEntries(agents, tasks);
    forall a, b | a in r && b in r && a != b && r[a].Some?
      ensures r[a] != r[b]
    {
      var i := AgentIndex(agents, a);
      var j := AgentIndex(agents, b);
      if j < |p| {
        PermTasksDiffer(agents, tasks, p, i, j);
      }
    }
  }

  /** Two positions of a permutation without repeats name tasks with different ids. */
  lemma PermTasksDiffer(agents: seq<Agent>, tasks: seq<Task>, p: seq<int>, i: int, j: int)
    requires ValidPerm(agents, tasks, p) && Distinct(p) && DistinctTaskIds(tasks)
    requires 0 <= i < |p| && 0 <= j < |p| && i != j
    ensures tasks[p[i]].id != tasks[p[j]].id
  {
    assert p[i] != p[j];
    assert TaskIdSeq(tasks)[p[i]] != TaskIdSeq(tasks)[p[j]];
  }

  /** Where a permutation sits in the enumeration. */
  lemma ArrangementIndex(agents: seq<Agent>, tasks: seq<Task>, q: seq<int>) returns (j: int)
    requires IsArrangement(q, Range(|tasks|), Min(|agents|, |tasks|))
    ensures 0 <= j < |Arrangements(agents, tasks)| && Arrangements(agents, tasks)[j] == q
  {
    PermsComplete(Range(|tasks|), Min(|agents|, |tasks|), q);
    var ps := Arrangements(agents, tasks);
    j :| 0 <= j < |ps| && ps[j] == q;
  }

  /** The kept permutation is the scan's pick among the enumerated totals. */
  lemma BestPermIsScanned(agents: seq<Agent>, tasks: seq<Task>)
    ensures var ps := Arrangements(agents, tasks);
      var b := FirstBest(Totals(agents, tasks, ps));
      BestPerm(agents, tasks) == ps[b]
  {
  }

  /** No permutation the fallback enumerates totals more than the one it keeps. */
  lemma BruteForceOptimal(agents: seq<Agent>, tasks: seq<Task>, q: seq<int>)
    requires IsArrangement(q, Range(|tasks|), Min(|agents|, |tasks|))
    ensures ValidPerm(agents, tasks, q)
    ensures PermTotal(agents, tasks, q) <= PermTotal(agents, tasks, BestPerm(agents, tasks))
  {
    var ps := Arrangements(agents, tasks);
    var ts := Totals(agents, tasks, ps);
    var jq := ArrangementIndex(agents, tasks, q);
    BestPermIsScanned(agents, tasks);
    assert ts[jq] <= ts[FirstBest(ts)];
  }

  /** In the enumeration, the scan's pick beats every lexicographically smaller entry. */
  lemma PickBeatsSmaller(ps: seq<seq<int>>, ts: seq<real>, j: int)
    requires Sorted(ps) && |ts| == |ps| > 0 && 0 <= j < |ps|
    requires LexLess(ps[j], ps[FirstBest(ts)])
    ensures ts[j] < ts[FirstBest(ts)]
  {
    SortedPosition(ps, j, FirstBest(ts));
  }

  lemma ArrangementPickBeatsSmaller(agents: seq<Agent>, tasks: seq<Task>, j: int)
    requires 0 <= j < |Arrangements(agents, tasks)|
    requires LexLess(Arrangements(agents, tasks)[j], BestPerm(agents, tasks))
    ensures var ts := Totals(agents, tasks, Arrangements(agents, tasks));
      ts[j] < ts[FirstBest(ts)]
  {
    BestPermIsScanned(agents, tasks);
    PermsSorted(Range(|tasks|), Min(|agents|, |tasks|));
    var ps := Arrangements(agents, tasks);
    PickBeatsSmaller(ps, Totals(agents, tasks, ps), j);
  }

  /** The enumerated totals at position `j` and at the scan's pick. */
  lemma TotalsOfPick(agents: seq<Agent>, tasks: seq<Task>, j: int)
    requires 0 <= j < |Arrangements(agents, tasks)|
    ensures var ps := Arrangements(agents, tasks);
      var ts := Totals(agents, tasks, ps);
      && ts[j] == PermTotal(agents, tasks, ps[j])
      && ts[FirstBest(ts)] == PermTotal(agents, tasks, BestPerm(agents, tasks))
  {
    BestPermIsScanned(agents, tasks);
  }

  /** Among equally good permutations the lexicographically first is kept:
      every permutation before the kept one totals strictly less. */
  lemma BruteForceKeepsFirstOfTies(agents: seq<Agent>, tasks: seq<Task>, q: seq<int>)
    requires IsArrangement(q, Range(|tasks|), Min(|agents|, |tasks|))
    requires LexLess(q, BestPerm(agents, tasks))
    ensures ValidPerm(agents, tasks, q)
    ensures PermTotal(agents, tasks, q) < PermTotal(agents, tasks, BestPerm(agents, tasks))
  {
    var j := ArrangementIndex(agents, tasks, q);
    ArrangementPickBeatsSmaller(agents, tasks, j);
    TotalsOfPick(agents, tasks, j);
  }

  /** The dispatch of lines 16-21: the fallback runs on non-empty task lists
      with at most seven agents and no more tasks than agents. */
  predicate UsesBruteForce(numAgents: nat, numTasks: nat)
  {
    0 < numTasks && numAgents <= BruteForceMaxAgents && numTasks <= numAgents
  }

  /** `get_pso_assignment`, the swarm's best particle given as `particle`;
      it is read only when the swarm runs. */
  function Assign(agents: seq<Agent>, tasks: seq<Task>, particle: seq<real>): (r: map<int, Option<int>>)
    requires 0 < |tasks| && !UsesBruteForce(|agents|, |tasks|) ==>
      |particle| == |agents| && InBounds(particle, |tasks|)
    ensures |tasks| == 0 ==> r == map[]
    ensures |tasks| > 0 ==> r.Keys == AgentIds(agents)
    ensures SomeValues(r) <= TaskIds(tasks)
  {
    if |tasks| == 0 then map[]
    else if UsesBruteForce(|agents|, |tasks|) then BruteForce(agents, tasks)
    else Decode(agents, tasks, particle)
  }

  /** Both paths of the dispatcher keep tasks unique. */
  lemma AssignInjective(agents: seq<Agent>, tasks: seq<Task>, particle: seq<real>)
    requires 0 < |tasks| && !UsesBruteForce(|agents|, |tasks|) ==>
      |particle| == |agents| && InBounds(particle, |tasks|)
    requires DistinctAgentIds(agents) && DistinctTaskIds(tasks)
    ensures InjectiveSome(Assign(agents, tasks, particle))
  {
    if |tasks| > 0 {
      if UsesBruteForce(|agents|, |tasks|) {
        BruteForceInjective(agents, tasks);
      } else {
        DecodeInjective(agents, tasks, particle);
      }
    }
  }

  /** Small instances ignore the particle and return the fallback's best
      permutation: the first `|tasks|` agents take its tasks, the rest get
      `None`, and no task permutation totals more. */
  lemma SmallInstanceIsExhaustive(agents: seq<Agent>, tasks: seq<Task>, particle: seq<real>, q: seq<int>)
    requires UsesBruteForce(|agents|, |tasks|) && DistinctAgentIds(agents)
    requires IsArrangement(q, Range(|tasks|), |tasks|)
    ensures var p := BestPerm(agents, tasks);
      && |p| == |tasks|
      && (forall i :: 0 <= i < |tasks| ==> Assign(agents, tasks, particle)[agents[i].id] == Some(tasks[p[i]].id))
      && (forall i :: |tasks| <= i < |agents| ==> Assign(agents, tasks, particle)[agents[i].id] == None)
      && ValidPerm(agents, tasks, q) && PermTotal(agents, tasks, q) <= PermTotal(agents, tasks, p)
  {
    BruteForceEntries(agents, tasks);
    BruteForceOptimal(agents, tasks, q);
  }

  // The fallback as written only ever gives tasks to the first min(n, m)
  // agents. What follows searches instead over which agent takes each task.

  /** Task `t` goes to agent index `c[t]`, for the first `|c|` tasks. */
  ghost predicate ValidChoice(agents: seq<Agent>, tasks: seq<Task>, c: seq<int>)
  {
    |c| <= |tasks| && forall t :: 0 <= t < |c| ==> 0 <= c[t] < |agents|
  }

  /** The score sum of a choice of agents. */
  function ChoiceTotal(agents: seq<Agent>, tasks: seq<Task>, c: seq<int>): real
    requires ValidChoice(agents, tasks, c)
    decreases |c|
  {
    if |c| == 0 then 0.0
    else
      var n := |c| - 1;
      ChoiceTotal(agents, tasks, c[..n]) + SwarmScore(agents[c[n]], tasks[n])
  }

  /** `permutations(range(num_agents), num_tasks)`: a distinct agent for every task. */
  function Choices(agents: seq<Agent>, tasks: seq<Task>): (cs: seq<seq<int>>)
    requires |tasks| <= |agents|
    ensures |cs| > 0
    ensures forall i :: 0 <= i < |cs| ==> ValidChoice(agents, tasks, cs[i]) && |cs[i]| == |tasks|
    ensures forall i :: 0 <= i < |cs| ==> Distinct(cs[i])
  {
    var cs := Perms(Range(|agents|), |tasks|);
    PermsAreArrangements(Range(|agents|), |tasks|);
    forall i | 0 <= i < |cs|
      ensures ValidChoice(agents, tasks, cs[i])
    {
      forall t | 0 <= t < |cs[i]|
        ensures 0 <= cs[i][t] < |agents|
      {
        assert cs[i][t] in Range(|agents|);
      }
    }
    cs
  }

  function ChoiceTotals(agents: seq<Agent>, tasks: seq<Task>, cs: seq<seq<int>>): (ts: seq<real>)
    requires forall i :: 0 <= i < |cs| ==> ValidChoice(agents, tasks, cs[i])
    ensures |ts| == |cs| && forall i :: 0 <= i < |cs| ==> ts[i] == ChoiceTotal(agents, tasks, cs[i])
  {
    seq(|cs|, i requires 0 <= i < |cs| => ChoiceTotal(agents, tasks, cs[i]))
  }

  /** The first choice of agents with the largest total. */
  function BestChoice(agents: seq<Agent>, tasks: seq<Task>): (c: seq<int>)
    requires |tasks| <= |agents|
    ensures ValidChoice(agents, tasks, c) && |c| == |tasks| && Distinct(c)
  {
    var cs := Choices(agents, tasks);
    cs[FirstBest(ChoiceTotals(agents, tasks, cs))]
  }

  /** The assignment a choice builds: agent `c[t]` to task `t`. */
  function ChoiceAssignment(agents: seq<Agent>, tasks: seq<Task>, c: seq<int>): map<int, Option<int>>
    requires ValidChoice(agents, tasks, c)
    decreases |c|
  {
    if |c| == 0 then map[]
    else
      var n := |c| - 1;
      ChoiceAssignment(agents, tasks, c[..n])[agents[c[n]].id := Some(tasks[n].id)]
  }

  /** The ids of the agents a choice picks. */
  ghost function Chosen(agents: seq<Agent>, tasks: seq<Task>, c: seq<int>): set<int>
    requires ValidChoice(agents, tasks, c)
  {
    set t | 0 <= t < |c| :: agents[c[t]].id
  }

  lemma ChosenStep(agents: seq<Agent>, tasks: seq<Task>, c: seq<int>)
    requires ValidChoice(agents, tasks, c) && |c| > 0
    ensures ValidChoice(agents, tasks, c[..|c| - 1])
    ensures Chosen(agents, tasks, c) == Chosen(agents, tasks, c[..|c| - 1]) + {agents[c[|c| - 1]].id}
  {
    var n := |c| - 1;
    forall x | x in Chosen(agents, tasks, c)
      ensures x in Chosen(agents, tasks, c[..n]) + {agents[c[n]].id}
    {
      var t :| 0 <= t < |c| && agents[c[t]].id == x;
      if t < n {
        assert c[..n][t] == c[t];
      }
    }
    forall x | x in Chosen(agents, tasks, c[..n])
      ensures x in Chosen(agents, tasks, c)
    {
      var t :| 0 <= t < n && agents[c[..n][t]].id == x;
      assert c[..n][t] == c[t];
    }
  }

  lemma {:induction false} ChoiceAssignmentSpec(agents: seq<Agent>, tasks: seq<Task>, c: seq<int>)
    requires ValidChoice(agents, tasks, c)
    ensures ChoiceAssignment(agents, tasks, c).Keys == Chosen(agents, tasks, c)
    ensures SomeValues(ChoiceAssignment(agents, tasks, c)) <= TaskIds(tasks)
    decreases |c|
  {
    if |c| > 0 {
      var n := |c| - 1;
      ChoiceAssignmentSpec(agents, tasks, c[..n]);
      ChosenStep(agents, tasks, c);
      assert TaskIdSeq(tasks)[n] == tasks[n].id;
    }
  }

  lemma {:induction false} ChoiceAssignmentEntries(agents: seq<Agent>, tasks: seq<Task>, c: seq<int>)
    requires ValidChoice(agents, tasks, c) && DistinctAgentIds(agents) && Distinct(c)
    ensures forall t :: 0 <= t < |c| ==>
      agents[c[t]].id in ChoiceAssignment(agents, tasks, c) &&
      ChoiceAssignment(agents, tasks, c)[agents[c[t]].id] == Some(tasks[t].id)
    decreases |c|
  {
    if |c| > 0 {
      var n := |c| - 1;
      var prefix := c[..n];
      assert forall t :: 0 <= t < n ==> prefix[t] == c[t];
      assert Distinct(prefix);
      ChoiceAssignmentEntries(agents, tasks, prefix);
      var before := ChoiceAssignment(agents, tasks, prefix);
      var key := agents[c[n]].id;
      assert ChoiceAssignment(agents, tasks, c) == before[key := Some(tasks[n].id)];
      forall t | 0 <= t < n
        ensures agents[c[t]].id != key
      {
        assert AgentIdSeq(agents)[c[t]] != AgentIdSeq(agents)[c[n]];
      }
    }
  }

  /** The fallback as evidently intended: the best way to give every task a
      distinct agent, every other agent mapped to `None`. */
  function ExactAssignment(agents: seq<Agent>, tasks: seq<Task>): (r: map<int, Option<int>>)
    requires |tasks| <= |agents|
    ensures r.Keys == AgentIds(agents)
    ensures SomeValues(r) <= TaskIds(tasks)
  {
    var c := BestChoice(agents, tasks);
    ChoiceAssignmentSpec(agents, tasks, c);
    var m := ChoiceAssignment(agents, tasks, c);
    assert m.Keys <= AgentIds(agents) by {
      forall t | 0 <= t < |c|
        ensures agents[c[t]].id in AgentIds(agents)
      {
        assert AgentIdSeq(agents)[c[t]] == agents[c[t]].id;
      }
    }
    var r := FillNone(agents, m);
    assert SomeValues(r) <= SomeValues(m);
    r
  }

  lemma ChoiceIndex(agents: seq<Agent>, tasks: seq<Task>, c: seq<int>) returns (j: int)
    requires |tasks| <= |agents| && IsArrangement(c, Range(|agents|), |tasks|)
    ensures 0 <= j < |Choices(agents, tasks)| && Choices(agents, tasks)[j] == c
  {
    PermsComplete(Range(|agents|), |tasks|, c);
    var cs := Choices(agents, tasks);
    j :| 0 <= j < |cs| && cs[j] == c;
  }

  lemma TotalsOfBestChoice(agents: seq<Agent>, tasks: seq<Task>, j: int)
    requires |tasks| <= |agents| && 0 <= j < |Choices(agents, tasks)|
    ensures var cs := Choices(agents, tasks);
      var ts := ChoiceTotals(agents, tasks, cs);
      && ts[j] == ChoiceTotal(agents, tasks, cs[j])
      && ts[FirstBest(ts)] == ChoiceTotal(agents, tasks, BestChoice(agents, tasks))
  {
  }

  /** No way of giving each task a distinct agent totals more than the
      corrected fallback's choice. */
  lemma ExactAssignmentOptimal(agents: seq<Agent>, tasks: seq<Task>, c: seq<int>)
    requires |tasks| <= |agents| && IsArrangement(c, Range(|agents|), |tasks|)
    ensures ValidChoice(agents, tasks, c)
    ensures ChoiceTotal(agents, tasks, c) <= ChoiceTotal(agents, tasks, BestChoice(agents, tasks))
  {
    var j := ChoiceIndex(agents, tasks, c);
    TotalsOfBestChoice(agents, tasks, j);
  }

  /** The corrected fallback gives task `t` to agent `BestChoice[t]`, and
      `None` to every agent it does not choose. */
  lemma ExactAssignmentEntries(agents: seq<Agent>, tasks: seq<Task>)
    requires |tasks| <= |agents| && DistinctAgentIds(agents)
    ensures var c := BestChoice(agents, tasks);
      && (forall t :: 0 <= t < |tasks| ==> ExactAssignment(agents, tasks)[agents[c[t]].id] == Some(tasks[t].id))
      && (forall i :: 0 <= i < |agents| && i !in c ==> ExactAssignment(agents, tasks)[agents[i].id] == None)
  {
    var c := BestChoice(agents, tasks);
    ChoiceAssignmentSpec(agents, tasks, c);
    ChoiceAssignmentEntries(agents, tasks, c);
    forall i | 0 <= i < |agents| && i !in c
      ensures agents[i].id !in Chosen(agents, tasks, c)
    {
      forall t | 0 <= t < |c|
        ensures agents[c[t]].id != agents[i].id
      {
        assert c[t] != i;
        assert AgentIdSeq(agents)[c[t]] != AgentIdSeq(agents)[i];
      }
    }
    forall t | 0 <= t < |c|
      ensures agents[c[t]].id in Chosen(agents, tasks, c)
    {
    }
  }

  // Two agents and one task: the first agent, far away and at zero health,
  // gets the task although the second stands on it at full health.
  const FarAgent: Agent := Agent(1, "Attacker", 9, 9, IdleState, 0.0, FullEnergy, None, 1.0)
  const NearAgent: Agent := Agent(2, "Attacker", 0, 0, IdleState, 100.0, FullEnergy, None, 1.0)
  const LoneTask: Task := Task(1, "Scout", 0, 0, 5.0, false)

  /** The score of an agent moving at unit speed over a known distance. */
  lemma UnitSpeedScore(a: Agent, t: Task, d: nat)
    requires a.speed == 1.0 && Manhattan(a, t) == d
    ensures SwarmScore(a, t) == a.health * 0.3 + t.urgency * 0.4 - (d as real) * 0.3
  {
    assert TravelDivisor(a) == 1.0;
    assert (d as real) / 1.0 == d as real;
  }

  lemma FarAgentScore()
    ensures SwarmScore(FarAgent, LoneTask) == -3.4
  {
    var a, t := FarAgent, LoneTask;
    assert a.x == 9 && a.y == 9 && t.x == 0 && t.y == 0 && a.speed == 1.0;
    assert a.health == 0.0 && t.urgency == 5.0;
    UnitSpeedScore(a, t, 18);
  }

  lemma NearAgentScore()
    ensures SwarmScore(NearAgent, LoneTask) == 32.0
  {
    var a, t := NearAgent, LoneTask;
    assert a.x == 0 && a.y == 0 && t.x == 0 && t.y == 0 && a.speed == 1.0;
    assert a.health == 100.0 && t.urgency == 5.0;
    UnitSpeedScore(a, t, 0);
  }

  lemma SingletonTotals(agents: seq<Agent>, tasks: seq<Task>, i: int, k: int)
    requires 0 <= i < |agents| && 0 < |agents| && 0 <= k < |tasks|
    ensures ValidPerm(agents, tasks, [k]) && PermTotal(agents, tasks, [k]) == SwarmScore(agents[0], tasks[k])
    ensures ValidChoice(agents, tasks, [i]) && ChoiceTotal(agents, tasks, [i]) == SwarmScore(agents[i], tasks[0])
  {
    assert [k][..0] == [] && [i][..0] == [];
  }

  lemma SingletonArrangement(x: int, m: nat)
    requires 0 <= x < m
    ensures IsArrangement([x], Range(m), 1)
  {
    assert Range(m)[x] == x;
  }

  lemma SingletonChoice(agents: seq<Agent>, tasks: seq<Task>, c: seq<int>)
    requires ValidChoice(agents, tasks, c) && |c| == 1
    ensures c == [c[0]] && ChoiceTotal(agents, tasks, c) == SwarmScore(agents[c[0]], tasks[0])
  {
    assert c[..0] == [];
  }

  /** The two-agent, one-task snapshot. Taken as parameters so that the
      verifier reasons about it instead of evaluating the enumerations. */
  predicate LoneSnapshot(agents: seq<Agent>, tasks: seq<Task>)
  {
    agents == [FarAgent, NearAgent] && tasks == [LoneTask]
  }

  lemma LoneTaskTotals(agents: seq<Agent>, tasks: seq<Task>)
    requires LoneSnapshot(agents, tasks)
    ensures ValidPerm(agents, tasks, [0])
    ensures PermTotal(agents, tasks, [0]) == -3.4
    ensures ValidChoice(agents, tasks, [0])
    ensures ChoiceTotal(agents, tasks, [0]) == -3.4
    ensures ValidChoice(agents, tasks, [1])
    ensures ChoiceTotal(agents, tasks, [1]) == 32.0
  {
    SingletonTotals(agents, tasks, 0, 0);
    SingletonTotals(agents, tasks, 1, 0);
    FarAgentScore();
    NearAgentScore();
  }

  lemma LoneSnapshotIds(agents: seq<Agent>, tasks: seq<Task>)
    requires LoneSnapshot(agents, tasks)
    ensures DistinctAgentIds(agents) && AgentIds(agents) == {1, 2}
  {
    assert AgentIdSeq(agents) == [1, 2];
  }

  /** A map with keys 1 and 2 is fixed by its two entries. */
  lemma TwoKeyMap(m: map<int, Option<int>>, v1: Option<int>, v2: Option<int>)
    requires m.Keys == {1, 2} && m[1] == v1 && m[2] == v2
    ensures m == map[1 := v1, 2 := v2]
  {
  }

  /** As written: with two agents and one task, the first agent gets the task
      even when sending the second would total more. */
  lemma BruteForceMissesBetterAgent(agents: seq<Agent>, tasks: seq<Task>)
    requires |agents| == 2 && |tasks| == 1 && DistinctAgentIds(agents)
    requires SwarmScore(agents[0], tasks[0]) < SwarmScore(agents[1], tasks[0])
    ensures BruteForce(agents, tasks)[agents[0].id] == Some(tasks[0].id)
    ensures BruteForce(agents, tasks)[agents[1].id] == None
    ensures ValidChoice(agents, tasks, [1])
    ensures PermTotal(agents, tasks, BestPerm(agents, tasks)) < ChoiceTotal(agents, tasks, [1])
  {
    var p := BestPerm(agents, tasks);
    assert p == [0] by {
      assert |p| == 1 && 0 <= p[0] < 1;
    }
    BruteForceEntries(agents, tasks);
    SingletonTotals(agents, tasks, 0, 0);
    SingletonTotals(agents, tasks, 1, 0);
  }

  /** With two agents and one task, the corrected fallback sends the agent
      whose score is higher. */
  lemma BestOfTwo(agents: seq<Agent>, tasks: seq<Task>)
    requires |agents| == 2 && |tasks| == 1
    requires SwarmScore(agents[0], tasks[0]) < SwarmScore(agents[1], tasks[0])
    ensures BestChoice(agents, tasks) == [1]
  {
    var c := BestChoice(agents, tasks);
    SingletonArrangement(1, 2);
    ExactAssignmentOptimal(agents, tasks, [1]);
    SingletonTotals(agents, tasks, 1, 0);
    SingletonChoice(agents, tasks, c);
    assert c[0] == 1;
  }

  /** Two agents, one task, the second agent chosen: the first maps to `None`. */
  lemma SecondOfTwoChosen(agents: seq<Agent>, tasks: seq<Task>)
    requires |agents| == 2 && |tasks| == 1 && DistinctAgentIds(agents)
    requires BestChoice(agents, tasks) == [1]
    ensures ExactAssignment(agents, tasks)[agents[0].id] == None
    ensures ExactAssignment(agents, tasks)[agents[1].id] == Some(tasks[0].id)
  {
    ExactAssignmentEntries(agents, tasks);
    assert 0 !in BestChoice(agents, tasks);
  }

  /** Corrected: with two agents and one task, the agent scoring higher gets
      the task and the other gets `None`. */
  lemma ExactAssignmentPicksBetterAgent(agents: seq<Agent>, tasks: seq<Task>)
    requires |agents| == 2 && |tasks| == 1 && DistinctAgentIds(agents)
    requires SwarmScore(agents[0], tasks[0]) < SwarmScore(agents[1], tasks[0])
    ensures ExactAssignment(agents, tasks)[agents[1].id] == Some(tasks[0].id)
    ensures ExactAssignment(agents, tasks)[agents[0].id] == None
  {
    BestOfTwo(agents, tasks);
    SecondOfTwoChosen(agents, tasks);
  }

  /** In the concrete snapshot the far agent scores -3.4 and the near one 32. */
  lemma LoneSnapshotScores(agents: seq<Agent>, tasks: seq<Task>)
    requires LoneSnapshot(agents, tasks)
    ensures SwarmScore(agents[0], tasks[0]) == -3.4
    ensures SwarmScore(agents[1], tasks[0]) == 32.0
  {
    assert agents[0] == FarAgent && agents[1] == NearAgent && tasks[0] == LoneTask;
    FarAgentScore();
    NearAgentScore();
  }

  /** The concrete input, as written: the far agent is sent, for a total of
      -3.4, though sending the near one totals 32. */
  lemma LoneSnapshotAsWritten(agents: seq<Agent>, tasks: seq<Task>)
    requires LoneSnapshot(agents, tasks)
    ensures PermTotal(agents, tasks, BestPerm(agents, tasks)) == -3.4
    ensures ChoiceTotal(agents, tasks, [1]) == 32.0
    ensures BruteForce(agents, tasks) == map[1 := Some(1), 2 := None]
  {
    LoneSnapshotIds(agents, tasks);
    var p := BestPerm(agents, tasks);
    assert p == [0] by {
      assert |p| == 1 && 0 <= p[0] < 1;
    }
    BruteForceEntries(agents, tasks);
    var r := BruteForce(agents, tasks);
    assert r[agents[0].id] == Some(tasks[0].id);
    assert r[agents[1].id] == None;
    TwoKeyMap(r, Some(1), None);
    LoneTaskTotals(agents, tasks);
  }

  /** The concrete input, corrected: the near agent is sent. */
  lemma LoneSnapshotCorrected(agents: seq<Agent>, tasks: seq<Task>)
    requires LoneSnapshot(agents, tasks)
    ensures ExactAssignment(agents, tasks) == map[1 := None, 2 := Some(1)]
  {
    LoneSnapshotIds(agents, tasks);
    LoneSnapshotScores(agents, tasks);
    ExactAssignmentPicksBetterAgent(agents, tasks);
    TwoKeyMap(ExactAssignment(agents, tasks), None, Some(1));
  }

  /** The dispatcher with the corrected fallback. */
  function AssignExact(agents: seq<Agent>, tasks: seq<Task>, particle: seq<real>): (r: map<int, Option<int>>)
    requires 0 < |tasks| && !UsesBruteForce(|agents|, |tasks|) ==>
      |particle| == |agents| && InBounds(particle, |tasks|)
    ensures |tasks| == 0 ==> r == map[]
    ensures |tasks| > 0 ==> r.Keys == AgentIds(agents)
    ensures SomeValues(r) <= TaskIds(tasks)
  {
    if |tasks| == 0 then map[]
    else if UsesBruteForce(|agents|, |tasks|) then ExactAssignment(agents, tasks)
    else Decode(agents, tasks, particle)
  }

  /** Small instances: every task goes to a distinct agent, and no other
      choice of agents totals more. */
  lemma SmallInstanceIsOptimal(agents: seq<Agent>, tasks: seq<Task>, particle: seq<real>, c: seq<int>)
    requires UsesBruteForce(|agents|, |tasks|) && DistinctAgentIds(agents)
    requires IsArrangement(c, Range(|agents|), |tasks|)
    ensures var best := BestChoice(agents, tasks);
      && (forall t :: 0 <= t < |tasks| ==> AssignExact(agents, tasks, particle)[agents[best[t]].id] == Some(tasks[t].id))
      && ValidChoice(agents, tasks, c) && ChoiceTotal(agents, tasks, c) <= ChoiceTotal(agents, tasks, best)
  {
    ExactAssignmentEntries(agents, tasks);
    ExactAssignmentOptimal(agents, tasks, c);
  }
}
